=== FILE: README.md ===
# Pixel generators of a software renderer, in Dafny

This project models the two lazy pixel generators of a small Rust software
renderer and proves what they yield.

- **`LineIter`** (src/line.rs) is Bresenham's line algorithm as an iterator.
  `new` computes the absolute deltas, the step directions, the decision
  variable `d` and the point count `n`. Each `next` emits the current point
  and advances `x`, `y`, `d` and `n` with integer arithmetic.
- **`FillTriangleIter`** (src/triangle.rs) is half-space triangle filling as
  an iterator. `new` computes an integer bounding box from the floor and
  ceiling of the vertex extremes, plus three edge vectors. `next` walks the
  box in row-major order. It yields `Pixel { x, y, aa: 1.0 }` for every
  integer corner `(x, y)` where the three edge functions are all `>= 0` or
  all `<= 0`.

Files:

- `types.dfy` (module `Types`) holds `Option`, plus `Pixel` and `Point` from
  src/types.rs. `f32` coordinates are exact `real`s.
- `line.dfy` (module `Line`) models `LineIter`.
  - `LineIter` is a class with the source's ten fields. A ghost `Emitted`
    sequence records the points yielded so far.
  - The points are specified independently of the algorithm by the closed
    form `PointAt(s, i)`. The major coordinate advances `i` steps. The minor
    coordinate advances by the integer nearest to `i * minor / major`.
  - The source breaks an exact half by the direction of travel (`d <= 0`
    when stepping forwards, `d < 0` when stepping backwards). `RoundDiv`
    models that tie rule, and it is what makes the reversed line yield the
    reversed points.
  - `Valid()` ties the mutable fields to the closed form at index
    `|Emitted|`.
- `line_tests.dfy` (module `LineTests`) states the sixteen octant and
  symmetry tests of src/line.rs as lemmas about `Points`.
- `triangle.dfy` (module `Triangle`) models `FillTriangleIter`.
  - The geometry is pure functions: `Vec`, `PerpDot`, `BoundingBox`, the
    edge functions `C1`, `C2`, `C3`, and the predicate `Covers`.
  - `Scan` follows the cursor step by step. `Pending` lists the candidates
    the cursor still has to examine, and `Yields` is what a fresh iterator
    yields.
  - The iterator is a class whose `Next` keeps the source's `loop`.
- `triangle_tests.dfy` (module `TriangleTests`) works out concrete runs:
  - a general triangle, a single point, a horizontal and a vertical sliver,
    and a right triangle;
  - a call to `next` after the end, which resumes scanning because the
    iterator is not fused.

What the fill iterator does at its edges and corner cases:

- There is no top-left tie-break. Both sign patterns are accepted and zero
  counts as either sign, so every boundary point is covered; in particular
  every vertex at an integer corner is covered (`Covers`).
- The sample point is the integer corner `(x, y)`, not the pixel centre
  `(x + 0.5, y + 0.5)`.
- There is no clip rectangle, no barycentric weights in the yielded pixel
  and no winding normalisation. `aa` is always `1.0`.
- Degenerate triangles need not be empty:
  - `(4.5, 7.5)` three times yields the one pixel `(4, 7)` (`DotYields`);
  - three collinear vertices yield the scanned corners on their line
    (`FlatYields`, `UprightYields`). A vertex is yielded only when its
    corner is scanned (`YieldsMembers`). So a vertex is not yielded when it
    lies on column `maxx` of a box at least one wide, on row `maxy` of a box
    at least one tall, or on row `miny` of a box of width zero;
  - three copies of one integer point yield nothing, because the box has
    width and height zero (`IntegralDotYieldsNothing`).
- The triangle `(1, 2)-(5, 2)-(7, 4)` yields eight pixels, `(1..5, 2)` and
  `(4..6, 3)`: the whole bottom edge is filled (`SlantedYields`).
- The scan box is not exactly half-open:
  - when `miny == maxy`, row `miny` is still scanned;
  - after a row wrap, `(minx, iy)` is examined without comparing `minx`
    against `maxx`, so a box of width zero scans column `maxx` on the rows
    strictly between `miny` and `maxy`.
- The iterator is not fused. After the first `None` the cursor sits on row
  `max(iy + 1, maxy)`, and a later call scans that row. In a debug build
  the assertion `iy < maxy` (src/triangle.rs:79) fails on every such call
  that examines a candidate, so resuming is release-build behaviour.

## Model

| member | source | states |
|---|---|---|
| Line.RoundDivNearest | src/line.rs:71-89 | `RoundDiv(num, den, tiesUp)` is the integer nearest to num / den; an exact half goes up or down according to the tie rule |
| Line.RoundDivStep | src/line.rs:74-79 | one step of the minor offset: it stays exactly when the decision value `2*minor*(i+1) - major - 2*major*k` passes the sign test (`< 0` when ties go up, `<= 0` otherwise), and grows by one otherwise |
| Line.RoundDivMirror | src/line.rs:74-83 | rounding `minor*(major-j)/major` with one tie rule equals `minor` minus rounding `minor*j/major` with the opposite rule, which is why the direction-dependent tie makes lines symmetric |
| Line.DecisionStart | src/line.rs:31-33 | at the first point no minor step has been taken and the decision variable is `2*minor - major` (`dy2 - dx` or `dx2 - dy`) |
| Line.AdvanceMinor | src/line.rs:74-88 | the closed form's minor offset and decision variable move as `next` moves them: `+inc_e` and stay, or `+inc_ne` and one minor step |
| Line.Advance | src/line.rs:71-89 | point i + 1 is point i moved one step along the major axis and, unless the decision test says stay, one step along the minor axis |
| Line.PointCount | src/line.rs:40-52 | a line yields `max(abs(x1-x0), abs(y1-y0)) + 1` points; a zero-length line yields exactly its start point |
| Line.FirstPoint | src/line.rs:36-37 | the first point yielded is `(x0, y0)` |
| Line.LastPoint | src/line.rs:65-95 | the last point yielded is `(x1, y1)` |
| Line.ConsecutivePoints | src/line.rs:71-89 | between consecutive points the major coordinate moves exactly one step in its direction and the minor coordinate moves by none or one step in its direction |
| Line.PointInBox | src/line.rs:69-89 | every point lies in the axis-aligned box spanned by the two endpoints |
| Line.PointAtReversed | src/line.rs:74-83 | point j of the reversed segment is point `major - j` of the segment |
| Line.ReversedPoints | src/line.rs:74-83 | swapping the endpoints yields the same points in reverse order |
| Line.LineIter.constructor | src/line.rs:16-59 | `dx`, `dy` are the absolute deltas; `inc_x`, `inc_y` are -1 for a negative delta and +1 otherwise; `n` is the point count; the cursor is `(x0, y0)`; the iterator will yield exactly `Points` of the segment |
| Line.LineIter.Next | src/line.rs:65-95 | while points remain, yields the next point of `Points` and removes it from what remains; once none remain, yields `None` and changes nothing, on every later call too |
| Line.DecisionBounds | src/line.rs:74-88 | the decision variable `d` stays between `-2*major` and `2*minor` at every step |
| Line.CursorInI32 | src/line.rs:71-89 | for a segment satisfying `FitsI32`, the cursor is a 32-bit value at every step, including the position where `next` leaves it after the last point |
| Line.StateInI32 | src/line.rs:31-89 | for such a segment, the count, `inc_e`, `inc_ne`, the cursor and `d` are 32-bit values at every step |
| Line.FieldsInI32 | src/line.rs:2-13 | every field of a valid iterator over such a segment is a 32-bit value, so none of the source's `i32` updates overflows |
| Line.NewLineIter | src/line.rs:98-100 | `line_iter` gives a fresh iterator whose remaining points are the whole line |
| Line.CollectLine | src/line.rs:106-110 | draining a fresh iterator, as `collect()` does, gives exactly `Points` of the segment |
| LineTests.Octant1 | src/line.rs:106-116 | `(0,0)->(4,3)` yields `[0,0],[1,1],[2,1],[3,2],[4,3]`, and the reversed line the reversed list |
| LineTests.Octant2 | src/line.rs:118-128 | `(0,0)->(3,4)` yields `[0,0],[1,1],[1,2],[2,3],[3,4]`, and the reversed line the reversed list |
| LineTests.Octant3 | src/line.rs:130-140 | `(0,0)->(-3,4)` and its reversal yield the listed points |
| LineTests.Octant4 | src/line.rs:142-152 | `(0,0)->(-4,3)` and its reversal yield the listed points |
| LineTests.Octant5 | src/line.rs:154-164 | `(0,0)->(-4,-3)` and its reversal yield the listed points |
| LineTests.Octant6 | src/line.rs:166-176 | `(0,0)->(-3,-4)` and its reversal yield the listed points |
| LineTests.Octant7 | src/line.rs:178-188 | `(0,0)->(3,-4)` and its reversal yield the listed points |
| LineTests.Octant8 | src/line.rs:190-200 | `(0,0)->(4,-3)` and its reversal yield the listed points |
| LineTests.TopRowFits | src/line.rs:71-79 | a horizontal line on row `i32::MAX` satisfies `FitsI32`; after its last point the cursor stays on that row at `(11, i32::MAX)` |
| LineTests.TopPointOverflows | src/line.rs:80-81 | a single point on row `i32::MAX` violates `FitsI32`: in the call that would yield it, `next` steps y to `2^31` before returning |
| Triangle.Vec | src/triangle.rs:105-107 | `vec(u, v)` is the vector that carries u onto v |
| Triangle.Floor | src/triangle.rs:29-30 | `floor` then the integer cast: the largest integer not above r |
| Triangle.Ceil | src/triangle.rs:31-32 | `ceil` then the integer cast: the smallest integer not below r |
| Triangle.BoundingBox | src/triangle.rs:29-32 | each bound is the tightest integer on its side of all three vertices (`minx <= every x < minx + 1` for some vertex, and likewise for the others), and `minx <= maxx`, `miny <= maxy` |
| Triangle.PerpDotAlternating | src/triangle.rs:101-103 | `perp_dot` is alternating: exchanging its arguments negates it, and a vector against itself gives zero |
| Triangle.Edge | src/triangle.rs:83-88 | an edge function (`perp_dot` of the edge vector against the vector to the point) vanishes at both ends of its edge |
| Triangle.C1 | src/triangle.rs:83-86 | `c1 = perp_dot(c - a, p - a)` vanishes at the vertices a and c |
| Triangle.C2 | src/triangle.rs:84-87 | `c2 = perp_dot(a - b, p - b)` vanishes at the vertices b and a |
| Triangle.C3 | src/triangle.rs:85-88 | `c3 = perp_dot(b - c, p - c)` vanishes at the vertices c and b |
| Triangle.Covers | src/triangle.rs:90 | the sign test of `next` (all three `>= 0` or all three `<= 0`) accepts every vertex at an integer corner, since two edge functions vanish there |
| Triangle.EdgeReversed | src/triangle.rs:101-107 | running an edge backwards negates its edge function |
| Triangle.EdgeSum | src/triangle.rs:83-88 | `c1 + c2 + c3` is minus twice the signed area, at every point |
| Triangle.EdgeTerms | src/triangle.rs:81-88 | `next` evaluates the three edge functions from the stored edge vectors `ac`, `ba`, `cb`, with the same values as `C1`, `C2`, `C3` |
| Triangle.WindingCovers | src/triangle.rs:86-90 | the coverage test gives the same answer for the opposite winding and for rotated vertices |
| Triangle.InsideCovered | src/triangle.rs:81-91 | every integer point of the closed triangle, boundary and vertices included, passes the coverage test |
| Triangle.CoveredInside | src/triangle.rs:81-91 | for a triangle of non-zero area, every point passing the coverage test lies in the closed triangle, with barycentric coordinates `-c1/area2`, `-c2/area2` |
| Triangle.BarycentricPosition | src/triangle.rs:83-88 | for a non-zero area the edge functions over minus the doubled area locate the point |
| Triangle.FlatCovers | src/triangle.rs:86-90 | for a zero-area triangle a point is covered exactly when all three edge functions vanish there |
| Triangle.CoincidentCovers | src/triangle.rs:86-90 | when the three vertices coincide every point is covered |
| Triangle.RowFromMembers | src/triangle.rs:73-76 | the rest of a row holds exactly the columns `ix..maxx-1` of that row |
| Triangle.RowsMembers | src/triangle.rs:64-71 | the wrapped rows `lo..maxy-1` hold exactly the columns `minx..max(maxx, minx+1)-1` of those rows |
| Triangle.PendingMembers | src/triangle.rs:63-76 | a fresh cursor has exactly the `Scanned` points of the box pending |
| Triangle.RasterizeMembers | src/triangle.rs:86-92 | a run of candidates yields exactly its covered members, each with `aa == 1.0` |
| Triangle.RasterizeSame | src/triangle.rs:90 | triangles that cover the same candidates yield the same pixels from them |
| Triangle.PendingPop | src/triangle.rs:73-76 | inside its row, the cursor examines `(ix, iy)` next and moves to `ix + 1` |
| Triangle.PendingWrap | src/triangle.rs:64-70 | past the end of row iy, the cursor examines `(minx, iy + 1)` next if that row is below `maxy`, and nothing otherwise |
| Triangle.ScanCovered | src/triangle.rs:63-93 | every pixel still to come from the cursor `(ix, iy)` in the step-by-step scan `Scan` of the `loop` is covered, has `aa == 1.0`, and lies at or after the cursor in row-major order |
| Triangle.ScanPending | src/triangle.rs:62-94 | following the cursor step by step yields the covered pending candidates, in order |
| Triangle.YieldsMembers | src/triangle.rs:62-94 | a fresh iterator yields a pixel exactly when it has `aa == 1.0`, its corner is scanned and covered |
| Triangle.YieldsInBox | src/triangle.rs:63-79 | for a box at least one wide and tall, a fresh iterator yields exactly the covered corners of `[minx, maxx) x [miny, maxy)` |
| Triangle.ScannedOutsideBox | src/triangle.rs:63-79 | a box of height zero still has row `miny` scanned; a box of width zero has column `maxx` scanned on the rows strictly between `miny` and `maxy`; in a debug build the assertion at line 79 (height zero) or line 78 (width zero) fails on those candidates |
| Triangle.PendingAscending | src/triangle.rs:63-76 | the pending candidates are in strictly increasing row-major order |
| Triangle.RasterizeAscending | src/triangle.rs:63-92 | keeping the covered candidates of an ascending run keeps it ascending |
| Triangle.YieldsAscending | src/triangle.rs:63-76 | the yielded pixels are in strictly increasing row-major order, so no pixel is yielded twice |
| Triangle.RasterizeLength | src/triangle.rs:90-92 | a run of candidates yields at most one pixel per candidate |
| Triangle.PendingCount | src/triangle.rs:63-76 | from a fresh cursor a box of width w and height h has `w + max(h-1, 0) * max(w, 1)` candidates, which is `w * max(h, 1)` when `w >= 1` |
| Triangle.YieldsCount | src/triangle.rs:63-76 | a fresh iterator yields at most that many pixels before its first `None` |
| Triangle.WindingIndependent | src/triangle.rs:86-90 | the yielded pixels do not depend on the winding or on which vertex comes first |
| Triangle.CoincidentYields | src/triangle.rs:86-91 | when the three vertices coincide, every scanned corner is yielded |
| Triangle.FillTriangleIter.constructor | src/triangle.rs:28-56 | the box is `BoundingBox` of the vertices, the edge vectors are `c - a`, `a - b` and `b - c`, the cursor is `(minx, miny)`, and what remains is `Yields` of the triangle |
| Triangle.FillTriangleIter.Next | src/triangle.rs:62-94 | if a covered candidate remains, yields the first one and leaves the cursor just after it; otherwise yields `None` with the cursor at `(minx, max(iy + 1, maxy))`, from where a later call resumes |
| Triangle.MakeFillTriangleIter | src/triangle.rs:97-99 | `fill_triangle_iter` gives a fresh iterator whose remaining pixels are `Yields` of the triangle |
| Triangle.CollectFill | src/triangle.rs:59-95 | draining a fresh iterator up to its first `None` gives exactly `Yields` of the triangle |
| TriangleTests.SlantedYields | src/triangle.rs:62-94 | `(1,2)-(5,2)-(7,4)` has box `(1,2)-(7,4)` and yields `(1..5, 2)` then `(4..6, 3)` |
| TriangleTests.DotYields | src/triangle.rs:86-91 | three copies of `(4.5, 7.5)` yield the single pixel `(4, 7)` |
| TriangleTests.IntegralDotYieldsNothing | src/triangle.rs:64-70 | three copies of any integer point `(x, y)` give the box `(x, y)-(x, y)` and yield nothing: the first call wraps past the only row |
| TriangleTests.FlatYields | src/triangle.rs:64-91 | the collinear `(1,2),(6,2),(8,2)` has a box of height zero and yields `(1..7, 2)` |
| TriangleTests.UprightYields | src/triangle.rs:64-91 | the collinear `(2,1),(2,2),(2,4)` has a box of width zero, skips row 1 and yields `(2,2)`, `(2,3)` |
| TriangleTests.RightAngleYields | src/triangle.rs:81-91 | `(1,1),(3,1),(1,3)` yields `(1,1),(2,1),(1,2),(2,2)`; the corner `(1,3)` is a vertex on row `maxy` and is not scanned |
| TriangleTests.DrainAndResume | src/triangle.rs:64-70 | after the four pixels of the right triangle, `next` yields `None`, and the call after that yields `(1,3)` from row `maxy` (release-build behaviour: a debug build fails the assertion at line 79 on that call) |
| TriangleTests.RightAngleResumes | src/triangle.rs:64-70 | the iterator is not fused: for `(1,1),(3,1),(1,3)`, the call after the first `None` yields `Some((1,3))` in a release build; a debug build fails the assertion at line 79 there |

## Left out

- Line.LineIter.constructor: requires `Segment.FitsI32`. The endpoints, the absolute deltas and their doubles must fit in `i32`, and so must the cursor `PointAt(s, Major() + 1)` that `next` leaves after the last point. Outside that range the source's `x1 - x0` or `dx + dx` overflows. After the last point, `next` moves the cursor one more major step, and a minor step when the decision calls for it (src/line.rs:72-88). When that position leaves `i32`, a debug build panics before returning the last point, and a release build wraps a cursor that is never yielded. Examples: a single point on row `i32::MAX` (`LineTests.TopPointOverflows`), whereas a horizontal line on that row fits (`LineTests.TopRowFits`). The model does not cover segments whose cursor leaves `i32`.
- Line.LineIter.Next: integers are unbounded. Under the constructor's precondition, `Line.FieldsInI32` proves that no field leaves `i32`, so no wrap-around needs modelling.
- Triangle.BoundingBox: the `as i32` cast after `floor` and `ceil` saturates in the source for huge or non-finite coordinates. The model's integers are unbounded and the coordinates are finite reals.
- Triangle.FillTriangleIter.Next: `ix += 1` and `iy += 1` are `i32` additions in the source; the model does not wrap them.
- Triangle.WindingIndependent: holds for exact arithmetic. With `f32` products in `perp_dot` the two windings can round differently on boundary points.
- Triangle.CoincidentCovers: same caveat. In `f32` the edge vectors of coincident vertices are still exactly zero, but NaN or infinite coordinates are not modelled.
- `f32` rounding, NaN and infinities in `vec`, `perp_dot`, `floor` and `ceil`: all coordinates are exact reals.
- The `debug_assert!`s at src/triangle.rs:78-79 are not modelled as checks. They fail in a debug build in three cases. The first two are the zero-height and zero-width scans that `Triangle.ScannedOutsideBox` states. The third is every call after the first `None` that examines a candidate, on a row at or beyond `maxy` (`Triangle.FillTriangleIter.Next` states where the cursor goes). The model describes the release build throughout.
- Triangle.Scan: carries no contract of its own. `Triangle.ScanCovered` and `Triangle.ScanPending` state what it yields.
- `Point::new`, `Rect` and `Rect::new` in src/types.rs are plain data constructors with no behaviour; `Rect` is not used by either iterator.
- The unused `swap` import and the unused `mut` markers in src/triangle.rs have no behaviour.
- Iterator adapters other than draining with `collect()` are not modelled. `CollectLine` and `CollectFill` stand for `collect()`.
- src/main.rs (window creation, message loop, raw frame-buffer writes) is not part of this model.
- examples/support/canvas.rs (the SDL canvas and its `set_pixel`) and examples/tinyrenderer.rs (demo glue) are not part of this model.

=== FILE: line.dfy ===
/**
 * Bresenham's line algorithm as a lazy point generator.
 *
 * `LineIter` holds the integer state of the algorithm (current point, the
 * decision variable `d`, the count `n` of points still to come) and `Next`
 * emits one point per call. The points are specified independently of the
 * algorithm by `PointAt`: the i-th point advances i steps along the major
 * axis and, along the minor axis, the integer nearest to i * minor / major,
 * with an exact half resolved by the direction the line is drawn in. That
 * tie rule is what makes the reversed line yield the reversed points.
 */
module Line {
  import opened Types

  function Abs(v: int): nat { if v < 0 then -v else v }

  /** The step along an axis: -1 for a negative delta, +1 otherwise (also for a zero delta). */
  function Dir(v: int): int { if v < 0 then -1 else 1 }

  predicate InI32(v: int) { -0x8000_0000 <= v < 0x8000_0000 }

  /** The two endpoints a line iterator is built from. */
  datatype Segment = Segment(x0: int, y0: int, x1: int, y1: int) {
    function Dx(): nat { Abs(x1 - x0) }
    function Dy(): nat { Abs(y1 - y0) }
    function IncX(): int { Dir(x1 - x0) }
    function IncY(): int { Dir(y1 - y0) }

    /** x drives the line only when it is strictly the longer axis; diagonals step along y. */
    predicate XMajor() { Dx() > Dy() }
    function Major(): nat { if XMajor() then Dx() else Dy() }
    function Minor(): nat { if XMajor() then Dy() else Dx() }

    /** A tie of the decision variable steps the minor axis exactly when the major axis runs backwards. */
    predicate TiesUp() { (if XMajor() then IncX() else IncY()) < 0 }

    /** The same segment drawn from the other end. */
    function Reversed(): Segment { Segment(x1, y1, x0, y0) }

    /**
     * The endpoints, the deltas and their doubles are all 32-bit values, as
     * `LineIter::new` computes them, and so is the position where `next`
     * leaves the cursor after the last point: one step past the far end on
     * the major axis, and on the minor axis wherever the decision takes it.
     */
    predicate FitsI32() {
      InI32(x0) && InI32(y0) && InI32(x1) && InI32(y1) && InI32(2 * Dx()) && InI32(2 * Dy()) &&
      InI32(PointAt(this, Major() + 1).0) && InI32(PointAt(this, Major() + 1).1)
    }
  }

  /**
   * The integer nearest to num / den; an exact half rounds up when `tiesUp`
   * and down otherwise.
   */
  function RoundDiv(num: nat, den: nat, tiesUp: bool): int
    requires den > 0
  {
    if tiesUp then (2 * num + den) / (2 * den) else (2 * num + den - 1) / (2 * den)
  }

  /**
   * RoundDiv is the nearest integer: num / den lies within half a unit of it,
   * the closed end of the interval being the side the tie rule picks.
   */
  lemma RoundDivNearest(num: nat, den: nat, tiesUp: bool)
    requires den > 0
    ensures var q := RoundDiv(num, den, tiesUp);
            0 <= q &&
            if tiesUp then 2 * den * q <= 2 * num + den < 2 * den * q + 2 * den
            else 2 * den * q < 2 * num + den <= 2 * den * q + 2 * den
  {
  }

  lemma MulStep(b: int, x: int, y: int)
    requires b > 0 && x < y
    ensures b * x + b <= b * y
  {
    var t := y - x;
    assert b * y == b * x + b * t;
    assert b * t - b == b * (t - 1);
    assert b * (t - 1) >= 0;
  }

  lemma MulMono(b: nat, x: int, y: int)
    requires x <= y
    ensures b * x <= b * y
  {
    var t := y - x;
    assert b * y == b * x + b * t;
  }

  /** The bracket of RoundDiv's postcondition determines the quotient. */
  lemma RoundDivUnique(num: nat, den: nat, tiesUp: bool, q: int)
    requires den > 0
    requires if tiesUp then 2 * den * q <= 2 * num + den < 2 * den * q + 2 * den
             else 2 * den * q < 2 * num + den <= 2 * den * q + 2 * den
    ensures RoundDiv(num, den, tiesUp) == q
  {
    var r := RoundDiv(num, den, tiesUp);
    RoundDivNearest(num, den, tiesUp);
    if r < q {
      MulStep(2 * den, r, q);
    } else if q < r {
      MulStep(2 * den, q, r);
    }
  }

  /**
   * One Bresenham step: with k minor steps taken after i major steps and the
   * decision variable d = 2*minor*(i+1) - major - 2*major*k, the next
   * rounding stays at k exactly when the source keeps the minor coordinate
   * (d <= 0 going forwards, d < 0 going backwards) and moves to k + 1 otherwise.
   */
  lemma RoundDivStep(major: nat, minor: nat, tiesUp: bool, i: nat)
    requires 0 < major && minor <= major
    ensures var k := RoundDiv(minor * i, major, tiesUp);
            var d := 2 * minor * (i + 1) - major - 2 * major * k;
            RoundDiv(minor * (i + 1), major, tiesUp) == if (if tiesUp then d < 0 else d <= 0) then k else k + 1
  {
    var a := minor * i;
    var k := RoundDiv(a, major, tiesUp);
    RoundDivNearest(a, major, tiesUp);
    var d := 2 * minor * (i + 1) - major - 2 * major * k;
    assert minor * (i + 1) == a + minor;
    assert d == 2 * a + 2 * minor - major - 2 * major * k;
    assert 2 * major * (k + 1) == 2 * major * k + 2 * major;
    if (if tiesUp then d < 0 else d <= 0) {
      RoundDivUnique(a + minor, major, tiesUp, k);
    } else {
      RoundDivUnique(a + minor, major, tiesUp, k + 1);
    }
  }

  /** Rounding zero gives zero. */
  lemma RoundDivZero(den: nat, tiesUp: bool)
    requires 0 < den
    ensures RoundDiv(0, den, tiesUp) == 0
  {
    RoundDivUnique(0, den, tiesUp, 0);
  }

  /** Rounding an exact multiple gives the multiplier. */
  lemma RoundDivExact(den: nat, m: nat, tiesUp: bool)
    requires 0 < den
    ensures RoundDiv(m * den, den, tiesUp) == m
  {
    assert 2 * den * m == 2 * (m * den);
    RoundDivUnique(m * den, den, tiesUp, m);
  }

  /** Up to the full length, the minor offset never exceeds the minor delta. */
  lemma RoundDivBounded(major: nat, minor: nat, tiesUp: bool, i: nat)
    requires 0 < major && i <= major
    ensures RoundDiv(minor * i, major, tiesUp) <= minor
  {
    var a := minor * i;
    var q := RoundDiv(a, major, tiesUp);
    RoundDivNearest(a, major, tiesUp);
    MulMono(minor, i, major);
    assert a <= minor * major;
    assert 2 * major * minor == 2 * (minor * major);
    if q > minor {
      MulStep(2 * major, minor, q);
    }
  }

  /**
   * Rounding i steps from one end with one tie rule mirrors rounding from
   * the other end with the opposite tie rule.
   */
  lemma RoundDivMirror(major: nat, minor: nat, tiesUp: bool, j: nat)
    requires 0 < major && j <= major
    ensures RoundDiv(minor * (major - j), major, tiesUp) == minor - RoundDiv(minor * j, major, !tiesUp)
  {
    var a, full := minor * j, minor * major;
    var q := RoundDiv(a, major, !tiesUp);
    RoundDivNearest(a, major, !tiesUp);
    MulMono(minor, j, major);
    assert minor * (major - j) == full - a;
    assert 2 * major * (minor - q) == 2 * full - 2 * major * q;
    RoundDivUnique(full - a, major, tiesUp, minor - q);
  }

  /** How many minor-axis steps the i-th point has taken. */
  function MinorSteps(s: Segment, i: nat): int
  {
    if s.Major() == 0 then 0 else RoundDiv(s.Minor() * i, s.Major(), s.TiesUp())
  }

  /**
   * The i-th point of the line, for any i: the major coordinate advances by
   * i steps, the minor one by MinorSteps(s, i) steps. Index Major() + 1 is
   * where the iterator's cursor rests after the last point.
   */
  function PointAt(s: Segment, i: nat): (int, int)
  {
    var k := MinorSteps(s, i);
    if s.XMajor() then (s.x0 + s.IncX() * i, s.y0 + s.IncY() * k)
    else (s.x0 + s.IncX() * k, s.y0 + s.IncY() * i)
  }

  /** The points a fresh iterator yields, in order. */
  function Points(s: Segment): seq<(int, int)>
  {
    seq(s.Major() + 1, i requires 0 <= i => PointAt(s, i))
  }

  function Reverse<T>(q: seq<T>): seq<T>
  {
    seq(|q|, i requires 0 <= i < |q| => q[|q| - 1 - i])
  }

  lemma DirAbs(v: int)
    ensures Dir(v) * Abs(v) == v
    ensures Dir(v) == 1 || Dir(v) == -1
  {
  }

  /** A line has max(|x1-x0|, |y1-y0|) + 1 points; a zero-length line has exactly its start point. */
  lemma PointCount(s: Segment)
    ensures |Points(s)| == Max(Abs(s.x1 - s.x0), Abs(s.y1 - s.y0)) + 1
    ensures s.x0 == s.x1 && s.y0 == s.y1 ==> Points(s) == [(s.x0, s.y0)]
  {
  }

  /** The first point is the start point. */
  lemma FirstPoint(s: Segment)
    ensures Points(s)[0] == (s.x0, s.y0)
  {
    if s.Major() > 0 {
      RoundDivZero(s.Major(), s.TiesUp());
    }
  }

  /** The last point is the end point. */
  lemma LastPoint(s: Segment)
    ensures Points(s)[|Points(s)| - 1] == (s.x1, s.y1)
  {
    DirAbs(s.x1 - s.x0);
    DirAbs(s.y1 - s.y0);
    var m := s.Major();
    if m > 0 {
      RoundDivExact(m, s.Minor(), s.TiesUp());
      assert MinorSteps(s, m) == s.Minor();
    }
  }

  /**
   * Between consecutive points the major coordinate moves by exactly one
   * step in its direction and the minor coordinate by none or one step in its.
   */
  lemma ConsecutivePoints(s: Segment, i: nat)
    requires i + 1 < |Points(s)|
    ensures var p, q := Points(s)[i], Points(s)[i + 1];
            if s.XMajor() then q.0 == p.0 + s.IncX() && (q.1 == p.1 || q.1 == p.1 + s.IncY())
            else q.1 == p.1 + s.IncY() && (q.0 == p.0 || q.0 == p.0 + s.IncX())
  {
    Advance(s, i);
    assert Points(s)[i] == PointAt(s, i) && Points(s)[i + 1] == PointAt(s, i + 1);
  }

  /** Every point lies in the axis-aligned box spanned by the two endpoints. */
  lemma PointInBox(s: Segment, i: nat)
    requires i < |Points(s)|
    ensures Min(s.x0, s.x1) <= Points(s)[i].0 <= Max(s.x0, s.x1)
    ensures Min(s.y0, s.y1) <= Points(s)[i].1 <= Max(s.y0, s.y1)
  {
    var m := s.Major();
    var k := MinorSteps(s, i);
    if m > 0 {
      RoundDivBounded(m, s.Minor(), s.TiesUp(), i);
      RoundDivNearest(s.Minor() * i, m, s.TiesUp());
    }
    assert 0 <= k <= s.Minor();
    if s.XMajor() {
      AxisInRange(s.x0, s.x1, i);
      AxisInRange(s.y0, s.y1, k);
    } else {
      AxisInRange(s.x0, s.x1, k);
      AxisInRange(s.y0, s.y1, i);
    }
  }

  /** Up to |a1 - a0| steps from a0 towards a1 stay between the two. */
  lemma AxisInRange(a0: int, a1: int, o: int)
    requires 0 <= o <= Abs(a1 - a0)
    ensures Min(a0, a1) <= a0 + Dir(a1 - a0) * o <= Max(a0, a1)
  {
    if a1 < a0 {
      assert Dir(a1 - a0) * o == -o;
    }
  }

  /** Walking back from a1 towards a0 by D - o steps lands where walking o steps from a0 does. */
  lemma AxisMirror(a0: int, a1: int, o: int)
    requires a0 != a1 || o == 0
    ensures a1 + Dir(a0 - a1) * (Abs(a1 - a0) - o) == a0 + Dir(a1 - a0) * o
  {
    if a1 < a0 {
      assert Dir(a0 - a1) * (Abs(a1 - a0) - o) == Abs(a1 - a0) - o;
      assert Dir(a1 - a0) * o == -o;
    } else if a0 < a1 {
      assert Dir(a0 - a1) * (Abs(a1 - a0) - o) == o - Abs(a1 - a0);
      assert Dir(a1 - a0) * o == o;
    }
  }

  /** Drawn from the far end, the minor offset after j steps complements the near end's after major - j. */
  lemma MinorStepsReversed(s: Segment, j: nat)
    requires 0 < s.Major() && j <= s.Major()
    ensures var kr := MinorSteps(s.Reversed(), j);
            0 <= kr <= s.Minor() && MinorSteps(s, s.Major() - j) == s.Minor() - kr
  {
    var r, m, mn := s.Reversed(), s.Major(), s.Minor();
    assert r.Major() == m && r.Minor() == mn && r.TiesUp() == !s.TiesUp();
    RoundDivMirror(m, mn, s.TiesUp(), j);
    RoundDivNearest(mn * j, m, !s.TiesUp());
    RoundDivBounded(m, mn, !s.TiesUp(), j);
  }

  /** The i-th point drawn from the far end is the mirrored point drawn from the near end. */
  lemma PointAtReversed(s: Segment, j: nat)
    requires j <= s.Major()
    ensures PointAt(s.Reversed(), j) == PointAt(s, s.Major() - j)
  {
    var m := s.Major();
    if m > 0 {
      MinorStepsReversed(s, j);
      var ks := MinorSteps(s, m - j);
      if s.XMajor() {
        AxisMirror(s.x0, s.x1, m - j);
        AxisMirror(s.y0, s.y1, ks);
      } else {
        AxisMirror(s.y0, s.y1, m - j);
        AxisMirror(s.x0, s.x1, ks);
      }
    }
  }

  /** Swapping the endpoints yields the same points in reverse order. */
  lemma ReversedPoints(s: Segment)
    ensures Points(s.Reversed()) == Reverse(Points(s))
  {
    var a, b := Points(s.Reversed()), Reverse(Points(s));
    assert s.Reversed().Major() == s.Major();
    forall j | 0 <= j < |a|
      ensures a[j] == b[j]
    {
      PointAtReversed(s, j);
    }
  }

  /** The decision variable of the closed form at point i. */
  function Decision(s: Segment, i: nat): int
  {
    2 * s.Minor() * (i + 1) - s.Major() - 2 * s.Major() * MinorSteps(s, i)
  }

  /** Whether the step after point i keeps the minor coordinate, by the source's tie rule. */
  predicate Stays(s: Segment, i: nat)
  {
    if s.TiesUp() then Decision(s, i) < 0 else Decision(s, i) <= 0
  }

  /** At the start no minor step has been taken and the decision variable is 2*minor - major. */
  lemma DecisionStart(s: Segment)
    ensures MinorSteps(s, 0) == 0
    ensures Decision(s, 0) == 2 * s.Minor() - s.Major()
  {
    if s.Major() > 0 {
      RoundDivZero(s.Major(), s.TiesUp());
    }
  }

  /**
   * One step of the closed form, as the iterator takes it: the minor offset
   * stays or grows by one as the decision variable says, and the decision
   * variable moves by 2*minor or by 2*minor - 2*major accordingly.
   */
  lemma AdvanceMinor(s: Segment, i: nat)
    ensures MinorSteps(s, i + 1) == MinorSteps(s, i) + (if Stays(s, i) then 0 else 1)
    ensures Decision(s, i + 1) == Decision(s, i) + 2 * s.Minor() - (if Stays(s, i) then 0 else 2 * s.Major())
  {
    var m, mn := s.Major(), s.Minor();
    var k := MinorSteps(s, i);
    if m > 0 {
      RoundDivStep(m, mn, s.TiesUp(), i);
    }
    assert MinorSteps(s, i + 1) == k + (if Stays(s, i) then 0 else 1);
    DecisionShift(m, mn, i, k, Stays(s, i));
  }

  /** The decision variable's update, as plain arithmetic on major, minor, i and the minor offset k. */
  lemma DecisionShift(m: int, mn: int, i: int, k: int, stays: bool)
    ensures 2 * mn * (i + 2) - m - 2 * m * (if stays then k else k + 1) ==
            2 * mn * (i + 1) - m - 2 * m * k + 2 * mn - (if stays then 0 else 2 * m)
  {
    assert 2 * mn * (i + 2) == 2 * mn * (i + 1) + 2 * mn;
    assert 2 * m * (k + 1) == 2 * m * k + 2 * m;
  }

  /** Point i + 1 is point i moved one step along the major axis and, unless it stays, one along the minor. */
  lemma Advance(s: Segment, i: nat)
    ensures var p, q := PointAt(s, i), PointAt(s, i + 1);
            if s.XMajor() then q == (p.0 + s.IncX(), if Stays(s, i) then p.1 else p.1 + s.IncY())
            else q == (if Stays(s, i) then p.0 else p.0 + s.IncX(), p.1 + s.IncY())
  {
    AdvanceMinor(s, i);
    var k := MinorSteps(s, i);
    var sx, sy := s.IncX(), s.IncY();
    assert sx * (i + 1) == sx * i + sx;
    assert sy * (i + 1) == sy * i + sy;
    assert sx * (k + 1) == sx * k + sx;
    assert sy * (k + 1) == sy * k + sy;
  }

  /** One more point drawn extends the prefix drawn so far by the point at that index. */
  lemma PrefixStep(s: Segment, i: nat)
    requires i <= s.Major()
    ensures Points(s)[..i + 1] == Points(s)[..i] + [PointAt(s, i)]
    ensures Points(s)[i..] == [PointAt(s, i)] + Points(s)[i + 1..]
  {
    assert Points(s)[..i + 1] == Points(s)[..i] + [Points(s)[i]];
  }

  /** The decision variable stays between -2*major and 2*minor, at every index. */
  lemma DecisionBounds(s: Segment, i: nat)
    ensures -2 * s.Major() <= Decision(s, i) <= 2 * s.Minor()
  {
    var m, mn := s.Major(), s.Minor();
    if m > 0 {
      RoundDivNearest(mn * i, m, s.TiesUp());
      assert 2 * mn * (i + 1) == 2 * (mn * i) + 2 * mn;
    }
  }

  /**
   * The cursor stays a 32-bit value at every index up to one past the last
   * point, where it rests once the count is used up.
   */
  lemma CursorInI32(s: Segment, i: nat)
    requires s.FitsI32() && i <= s.Major() + 1
    ensures InI32(PointAt(s, i).0) && InI32(PointAt(s, i).1)
  {
    if i <= s.Major() {
      PointInBox(s, i);
      assert Points(s)[i] == PointAt(s, i);
    }
  }

  /**
   * Every value `LineIter` holds is a 32-bit value: the increments and the
   * count, and, at every index up to one past the last point, the cursor and
   * the decision variable.
   */
  lemma StateInI32(s: Segment, i: nat)
    requires s.FitsI32() && i <= s.Major() + 1
    ensures InI32(s.Major() + 1) && InI32(2 * s.Minor()) && InI32(2 * s.Minor() - 2 * s.Major())
    ensures InI32(PointAt(s, i).0) && InI32(PointAt(s, i).1) && InI32(Decision(s, i))
  {
    CursorInI32(s, i);
    DecisionBounds(s, i);
  }

  /**
   * The state of `LineIter`. The concrete fields are the source's; the ghost
   * `seg` is the segment it was built from and `Emitted` the points yielded
   * so far.
   */
  class LineIter {
    var x: int
    var y: int
    var dx: int
    var dy: int
    var n: int
    var incX: int
    var incY: int
    var incE: int
    var incNE: int
    var d: int

    ghost const seg: Segment
    ghost var Emitted: seq<(int, int)>

    ghost predicate Valid()
      reads this
    {
      var i := |Emitted|;
      dx == seg.Dx() && dy == seg.Dy() && incX == seg.IncX() && incY == seg.IncY() &&
      incE == 2 * seg.Minor() && incNE == 2 * seg.Minor() - 2 * seg.Major() &&
      0 <= n && i + n == seg.Major() + 1 &&
      Emitted == Points(seg)[..i] &&
      (x, y) == PointAt(seg, i) &&
      d == Decision(seg, i)
    }

    /** The points still to be yielded. */
    ghost function Remaining(): seq<(int, int)>
      reads this
      requires Valid()
    {
      Points(seg)[|Emitted|..]
    }

    /** `LineIter::new`: absolute deltas, step directions, decision variable and point count. */
    constructor (x0: int, y0: int, x1: int, y1: int)
      requires Segment(x0, y0, x1, y1).FitsI32()
      ensures Valid() && seg == Segment(x0, y0, x1, y1) && Emitted == []
      ensures dx == Abs(x1 - x0) && dy == Abs(y1 - y0)
      ensures incX == (if x1 < x0 then -1 else 1) && incY == (if y1 < y0 then -1 else 1)
      ensures n == Max(Abs(x1 - x0), Abs(y1 - y0)) + 1
      ensures (x, y) == (x0, y0)
    {
      var dx', incX' := x1 - x0, 1;
      if dx' < 0 {
        incX' := -1;
        dx' := -dx';
      }
      var dy', incY' := y1 - y0, 1;
      if dy' < 0 {
        incY' := -1;
        dy' := -dy';
      }
      var dx2, dy2 := dx' + dx', dy' + dy';
      x, y := x0, y0;
      dx, dy := dx', dy';
      n := (if dx' > dy' then (if incX' > 0 then x1 - x0 else x0 - x1)
            else (if incY' > 0 then y1 - y0 else y0 - y1)) + 1;
      incX, incY := incX', incY';
      incE := if dx' > dy' then dy2 else dx2;
      incNE := if dx' > dy' then dy2 - dx2 else dx2 - dy2;
      d := if dx' > dy' then dy2 - dx' else dx2 - dy';
      seg := Segment(x0, y0, x1, y1);
      Emitted := [];
      new;
      FirstPoint(seg);
      DecisionStart(seg);
    }

    /**
     * `Iterator::next`: yields the next point and advances the state, or
     * yields nothing (and changes nothing) once the count is used up.
     */
    method Next() returns (p: Option<(int, int)>)
      requires Valid()
      modifies this
      ensures Valid()
      ensures old(Remaining()) == [] ==> p == None && unchanged(this)
      ensures old(Remaining()) != [] ==>
                p == Some(old(Remaining())[0]) && Remaining() == old(Remaining())[1..] &&
                Emitted == old(Emitted) + [p.value]
    {
      if n > 0 {
        ghost var i := |Emitted|;
        PrefixStep(seg, i);
        Advance(seg, i);
        AdvanceMinor(seg, i);
        DirAbs(seg.x1 - seg.x0);
        DirAbs(seg.y1 - seg.y0);
        n := n - 1;
        p := Some((x, y));
        if dx > dy {
          x := x + incX;
          if (incX > 0 && d <= 0) || (incX < 0 && d < 0) {
            d := d + incE;
          } else {
            d := d + incNE;
            y := y + incY;
          }
        } else {
          y := y + incY;
          if (incY > 0 && d <= 0) || (incY < 0 && d < 0) {
            d := d + incE;
          } else {
            d := d + incNE;
            x := x + incX;
          }
        }
        Emitted := Emitted + [p.value];
      } else {
        p := None;
      }
    }
  }

  /**
   * A valid iterator over a segment that fits in 32 bits holds only 32-bit
   * values, at every step including the state after the last point.
   */
  lemma FieldsInI32(it: LineIter)
    requires it.Valid() && it.seg.FitsI32()
    ensures InI32(it.x) && InI32(it.y) && InI32(it.dx) && InI32(it.dy) && InI32(it.n)
    ensures InI32(it.incX) && InI32(it.incY) && InI32(it.incE) && InI32(it.incNE) && InI32(it.d)
  {
    StateInI32(it.seg, |it.Emitted|);
  }

  /** `line_iter`: a fresh iterator from (x0, y0) to (x1, y1). */
  method NewLineIter(x0: int, y0: int, x1: int, y1: int) returns (it: LineIter)
    requires Segment(x0, y0, x1, y1).FitsI32()
    ensures fresh(it) && it.Valid() && it.seg == Segment(x0, y0, x1, y1)
    ensures it.Remaining() == Points(Segment(x0, y0, x1, y1))
  {
    it := new LineIter(x0, y0, x1, y1);
  }

  /** Drains a fresh iterator, as the tests' `collect()` does. */
  method CollectLine(x0: int, y0: int, x1: int, y1: int) returns (points: seq<(int, int)>)
    requires Segment(x0, y0, x1, y1).FitsI32()
    ensures points == Points(Segment(x0, y0, x1, y1))
  {
    var it := new LineIter(x0, y0, x1, y1);
    points := [];
    while true
      invariant it.Valid() && it.seg == Segment(x0, y0, x1, y1)
      invariant points == it.Emitted
      decreases it.n
    {
      var p := it.Next();
      if p.None? {
        break;
      }
      points := points + [p.value];
    }
  }
}

=== FILE: line_tests.dfy ===
/**
 * The octant tests of the line iterator, stated about the points a fresh
 * iterator yields.
 */
module LineTests {
  import opened Line

  /** A line of four steps, listed point by point. */
  lemma FivePoints(s: Segment)
    requires s.Major() == 4
    ensures Points(s) == [PointAt(s, 0), PointAt(s, 1), PointAt(s, 2), PointAt(s, 3), PointAt(s, 4)]
  {
  }

  // The octant tests: a line from the origin into each octant, and the same
  // line drawn back to the origin. Each OctantNPointAt evaluates the closed
  // form point by point after the start point; OctantN states both sequences, the second one by
  // way of ReversedPoints.

  lemma Octant1PointAt()
    ensures PointAt(Segment(0, 0, 4, 3), 1) == (1, 1)
    ensures PointAt(Segment(0, 0, 4, 3), 2) == (2, 1)
    ensures PointAt(Segment(0, 0, 4, 3), 3) == (3, 2)
    ensures PointAt(Segment(0, 0, 4, 3), 4) == (4, 3)
  {
  }

  lemma Octant1()
    ensures Points(Segment(0, 0, 4, 3)) == [(0, 0), (1, 1), (2, 1), (3, 2), (4, 3)]
    ensures Points(Segment(4, 3, 0, 0)) == [(4, 3), (3, 2), (2, 1), (1, 1), (0, 0)]
  {
    Octant1PointAt();
    FirstPoint(Segment(0, 0, 4, 3));
    FivePoints(Segment(0, 0, 4, 3));
    ReversedPoints(Segment(0, 0, 4, 3));
  }

  lemma Octant2PointAt()
    ensures PointAt(Segment(0, 0, 3, 4), 1) == (1, 1)
    ensures PointAt(Segment(0, 0, 3, 4), 2) == (1, 2)
    ensures PointAt(Segment(0, 0, 3, 4), 3) == (2, 3)
    ensures PointAt(Segment(0, 0, 3, 4), 4) == (3, 4)
  {
  }

  lemma Octant2()
    ensures Points(Segment(0, 0, 3, 4)) == [(0, 0), (1, 1), (1, 2), (2, 3), (3, 4)]
    ensures Points(Segment(3, 4, 0, 0)) == [(3, 4), (2, 3), (1, 2), (1, 1), (0, 0)]
  {
    Octant2PointAt();
    FirstPoint(Segment(0, 0, 3, 4));
    FivePoints(Segment(0, 0, 3, 4));
    ReversedPoints(Segment(0, 0, 3, 4));
  }

  lemma Octant3PointAt()
    ensures PointAt(Segment(0, 0, -3, 4), 1) == (-1, 1)
    ensures PointAt(Segment(0, 0, -3, 4), 2) == (-1, 2)
    ensures PointAt(Segment(0, 0, -3, 4), 3) == (-2, 3)
    ensures PointAt(Segment(0, 0, -3, 4), 4) == (-3, 4)
  {
  }

  lemma Octant3()
    ensures Points(Segment(0, 0, -3, 4)) == [(0, 0), (-1, 1), (-1, 2), (-2, 3), (-3, 4)]
    ensures Points(Segment(-3, 4, 0, 0)) == [(-3, 4), (-2, 3), (-1, 2), (-1, 1), (0, 0)]
  {
    Octant3PointAt();
    FirstPoint(Segment(0, 0, -3, 4));
    FivePoints(Segment(0, 0, -3, 4));
    ReversedPoints(Segment(0, 0, -3, 4));
  }

  lemma Octant4PointAt()
    ensures PointAt(Segment(0, 0, -4, 3), 1) == (-1, 1)
    ensures PointAt(Segment(0, 0, -4, 3), 2) == (-2, 2)
    ensures PointAt(Segment(0, 0, -4, 3), 3) == (-3, 2)
    ensures PointAt(Segment(0, 0, -4, 3), 4) == (-4, 3)
  {
  }

  lemma Octant4()
    ensures Points(Segment(0, 0, -4, 3)) == [(0, 0), (-1, 1), (-2, 2), (-3, 2), (-4, 3)]
    ensures Points(Segment(-4, 3, 0, 0)) == [(-4, 3), (-3, 2), (-2, 2), (-1, 1), (0, 0)]
  {
    Octant4PointAt();
    FirstPoint(Segment(0, 0, -4, 3));
    FivePoints(Segment(0, 0, -4, 3));
    ReversedPoints(Segment(0, 0, -4, 3));
  }

  lemma Octant5PointAt()
    ensures PointAt(Segment(0, 0, -4, -3), 1) == (-1, -1)
    ensures PointAt(Segment(0, 0, -4, -3), 2) == (-2, -2)
    ensures PointAt(Segment(0, 0, -4, -3), 3) == (-3, -2)
    ensures PointAt(Segment(0, 0, -4, -3), 4) == (-4, -3)
  {
  }

  lemma Octant5()
    ensures Points(Segment(0, 0, -4, -3)) == [(0, 0), (-1, -1), (-2, -2), (-3, -2), (-4, -3)]
    ensures Points(Segment(-4, -3, 0, 0)) == [(-4, -3), (-3, -2), (-2, -2), (-1, -1), (0, 0)]
  {
    Octant5PointAt();
    FirstPoint(Segment(0, 0, -4, -3));
    FivePoints(Segment(0, 0, -4, -3));
    ReversedPoints(Segment(0, 0, -4, -3));
  }

  lemma Octant6PointAt()
    ensures PointAt(Segment(0, 0, -3, -4), 1) == (-1, -1)
    ensures PointAt(Segment(0, 0, -3, -4), 2) == (-2, -2)
    ensures PointAt(Segment(0, 0, -3, -4), 3) == (-2, -3)
    ensures PointAt(Segment(0, 0, -3, -4), 4) == (-3, -4)
  {
  }

  lemma Octant6()
    ensures Points(Segment(0, 0, -3, -4)) == [(0, 0), (-1, -1), (-2, -2), (-2, -3), (-3, -4)]
    ensures Points(Segment(-3, -4, 0, 0)) == [(-3, -4), (-2, -3), (-2, -2), (-1, -1), (0, 0)]
  {
    Octant6PointAt();
    FirstPoint(Segment(0, 0, -3, -4));
    FivePoints(Segment(0, 0, -3, -4));
    ReversedPoints(Segment(0, 0, -3, -4));
  }

  lemma Octant7PointAt()
    ensures PointAt(Segment(0, 0, 3, -4), 1) == (1, -1)
    ensures PointAt(Segment(0, 0, 3, -4), 2) == (2, -2)
    ensures PointAt(Segment(0, 0, 3, -4), 3) == (2, -3)
    ensures PointAt(Segment(0, 0, 3, -4), 4) == (3, -4)
  {
  }

  lemma Octant7()
    ensures Points(Segment(0, 0, 3, -4)) == [(0, 0), (1, -1), (2, -2), (2, -3), (3, -4)]
    ensures Points(Segment(3, -4, 0, 0)) == [(3, -4), (2, -3), (2, -2), (1, -1), (0, 0)]
  {
    Octant7PointAt();
    FirstPoint(Segment(0, 0, 3, -4));
    FivePoints(Segment(0, 0, 3, -4));
    ReversedPoints(Segment(0, 0, 3, -4));
  }

  lemma Octant8PointAt()
    ensures PointAt(Segment(0, 0, 4, -3), 1) == (1, -1)
    ensures PointAt(Segment(0, 0, 4, -3), 2) == (2, -1)
    ensures PointAt(Segment(0, 0, 4, -3), 3) == (3, -2)
    ensures PointAt(Segment(0, 0, 4, -3), 4) == (4, -3)
  {
  }

  lemma Octant8()
    ensures Points(Segment(0, 0, 4, -3)) == [(0, 0), (1, -1), (2, -1), (3, -2), (4, -3)]
    ensures Points(Segment(4, -3, 0, 0)) == [(4, -3), (3, -2), (2, -1), (1, -1), (0, 0)]
  {
    Octant8PointAt();
    FirstPoint(Segment(0, 0, 4, -3));
    FivePoints(Segment(0, 0, 4, -3));
    ReversedPoints(Segment(0, 0, 4, -3));
  }

  /** A horizontal line on the last 32-bit row fits: after its last point the cursor stays on that row. */
  lemma TopRowFits()
    ensures Segment(0, 0x7FFF_FFFF, 10, 0x7FFF_FFFF).FitsI32()
    ensures PointAt(Segment(0, 0x7FFF_FFFF, 10, 0x7FFF_FFFF), 11) == (11, 0x7FFF_FFFF)
  {
  }

  /** A single point on that row does not: in the call that would yield it, `next` steps y past `i32::MAX` before returning. */
  lemma TopPointOverflows()
    ensures !Segment(0, 0x7FFF_FFFF, 0, 0x7FFF_FFFF).FitsI32()
    ensures PointAt(Segment(0, 0x7FFF_FFFF, 0, 0x7FFF_FFFF), 1) == (0, 0x8000_0000)
  {
    var s := Segment(0, 0x7FFF_FFFF, 0, 0x7FFF_FFFF);
    assert s.Major() == 0 && !s.XMajor() && s.IncY() == 1 && MinorSteps(s, 1) == 0;
  }
}

=== FILE: triangle.dfy ===
/**
 * The half-space triangle fill iterator: a bounding box from the floor and
 * ceiling of the vertex extremes, scanned in row-major order, and a pixel
 * yielded for every integer corner at which the three edge functions agree
 * in sign. Coordinates are exact reals rather than single-precision floats.
 */
module Triangle {
  import opened Types

  /** The three vertices of a triangle, in the order the caller passes them. */
  datatype Tri = Tri(a: Point, b: Point, c: Point)
  {
    /** The same triangle with its second and third vertices exchanged: the opposite winding. */
    function SwapBC(): Tri
    {
      Tri(a, c, b)
    }

    /** The same triangle with its vertices rotated: b, c, a. */
    function Rotate(): Tri
    {
      Tri(b, c, a)
    }
  }

  /**
   * The integer bounds `FillTriangleIter::new` computes. The points `next`
   * actually examines are not exactly the half-open box; `Scanned` states
   * which they are.
   */
  datatype Box = Box(minx: int, miny: int, maxx: int, maxy: int)

  function MinR(a: real, b: real): real { if a <= b then a else b }

  function MaxR(a: real, b: real): real { if a >= b then a else b }

  /** `vec`: the vector from u to v, the one that carries u onto v. */
  function Vec(u: Point, v: Point): (w: Point)
    ensures u.x + w.x == v.x && u.y + w.y == v.y
  {
    Point(v.x - u.x, v.y - u.y)
  }

  /** `perp_dot`: the z component of the cross product of two plane vectors. */
  function PerpDot(u: Point, v: Point): real
  {
    u.x * v.y - u.y * v.x
  }

  /** The perp-dot product is alternating: exchanging its arguments negates it, and a vector against itself gives zero. */
  lemma PerpDotAlternating(u: Point, v: Point)
    ensures PerpDot(v, u) == -PerpDot(u, v)
    ensures PerpDot(u, u) == 0.0
  {
  }

  /** `f32::floor` followed by the cast to an integer: the largest integer not above r. */
  function Floor(r: real): (n: int)
    ensures n as real <= r < n as real + 1.0
  {
    r.Floor
  }

  /** `f32::ceil` followed by the cast to an integer: the smallest integer not below r. */
  function Ceil(r: real): (n: int)
    ensures r <= n as real < r + 1.0
  {
    -((-r).Floor)
  }

  /**
   * The box `FillTriangleIter::new` computes: floor of the least and ceiling
   * of the greatest coordinate on each axis. Each bound is characterised as
   * the tightest integer on its side of all three vertices.
   */
  function BoundingBox(t: Tri): (b: Box)
    ensures b.minx as real <= t.a.x && b.minx as real <= t.b.x && b.minx as real <= t.c.x
    ensures t.a.x < b.minx as real + 1.0 || t.b.x < b.minx as real + 1.0 || t.c.x < b.minx as real + 1.0
    ensures b.miny as real <= t.a.y && b.miny as real <= t.b.y && b.miny as real <= t.c.y
    ensures t.a.y < b.miny as real + 1.0 || t.b.y < b.miny as real + 1.0 || t.c.y < b.miny as real + 1.0
    ensures t.a.x <= b.maxx as real && t.b.x <= b.maxx as real && t.c.x <= b.maxx as real
    ensures b.maxx as real - 1.0 < t.a.x || b.maxx as real - 1.0 < t.b.x || b.maxx as real - 1.0 < t.c.x
    ensures t.a.y <= b.maxy as real && t.b.y <= b.maxy as real && t.c.y <= b.maxy as real
    ensures b.maxy as real - 1.0 < t.a.y || b.maxy as real - 1.0 < t.b.y || b.maxy as real - 1.0 < t.c.y
    ensures b.minx <= b.maxx && b.miny <= b.maxy
  {
    Box(Floor(MinR(MinR(t.a.x, t.b.x), t.c.x)), Floor(MinR(MinR(t.a.y, t.b.y), t.c.y)),
        Ceil(MaxR(MaxR(t.a.x, t.b.x), t.c.x)), Ceil(MaxR(MaxR(t.a.y, t.b.y), t.c.y)))
  }

  /** The edge function of the edge from u to v, at the point p; it vanishes at both ends of the edge. */
  function Edge(u: Point, v: Point, p: Point): (r: real)
    ensures p == u || p == v ==> r == 0.0
  {
    PerpDot(Vec(u, v), Vec(u, p))
  }

  /** The integer corner (x, y) as a point. */
  function Corner(x: int, y: int): Point
  {
    Point(x as real, y as real)
  }

  /** `c1`: edge a to c, measured from a. */
  function C1(t: Tri, x: int, y: int): (r: real)
    ensures Corner(x, y) == t.a || Corner(x, y) == t.c ==> r == 0.0
  {
    Edge(t.a, t.c, Corner(x, y))
  }

  /** `c2`: edge b to a, measured from b. */
  function C2(t: Tri, x: int, y: int): (r: real)
    ensures Corner(x, y) == t.b || Corner(x, y) == t.a ==> r == 0.0
  {
    Edge(t.b, t.a, Corner(x, y))
  }

  /** `c3`: edge c to b, measured from c. */
  function C3(t: Tri, x: int, y: int): (r: real)
    ensures Corner(x, y) == t.c || Corner(x, y) == t.b ==> r == 0.0
  {
    Edge(t.c, t.b, Corner(x, y))
  }

  /** The sign test of `next`: all three non-negative, or all three non-positive. */
  predicate SameSign(c1: real, c2: real, c3: real)
  {
    (c1 >= 0.0 && c2 >= 0.0 && c3 >= 0.0) || (c1 <= 0.0 && c2 <= 0.0 && c3 <= 0.0)
  }

  /**
   * The coverage test of `next`: the three edge functions at (x, y) agree in
   * sign. A vertex at an integer corner is always covered, since two of the
   * edge functions vanish there.
   */
  predicate Covers(t: Tri, x: int, y: int)
    ensures Corner(x, y) == t.a || Corner(x, y) == t.b || Corner(x, y) == t.c ==> Covers(t, x, y)
  {
    SameSign(C1(t, x, y), C2(t, x, y), C3(t, x, y))
  }

  /** Twice the signed area of the triangle. */
  function Area2(t: Tri): real
  {
    PerpDot(Vec(t.a, t.b), Vec(t.a, t.c))
  }

  /** Running an edge backwards negates its edge function everywhere. */
  lemma EdgeReversed(u: Point, v: Point, p: Point)
    ensures Edge(v, u, p) == -Edge(u, v, p)
  {
    var ex, ey := v.x - u.x, v.y - u.y;
    var wx, wy := p.x - u.x, p.y - u.y;
    assert Edge(u, v, p) == ex * wy - ey * wx;
    assert Edge(v, u, p) == (-ex) * (wy - ey) - (-ey) * (wx - ex);
  }

  /** The three edge functions sum to minus twice the signed area, wherever they are taken. */
  lemma EdgeSum(t: Tri, x: int, y: int)
    ensures C1(t, x, y) + C2(t, x, y) + C3(t, x, y) == -Area2(t)
  {
    var dbx, dby, dcx, dcy := t.b.x - t.a.x, t.b.y - t.a.y, t.c.x - t.a.x, t.c.y - t.a.y;
    var qx, qy := x as real - t.a.x, y as real - t.a.y;
    assert C1(t, x, y) == dcx * qy - dcy * qx;
    assert C2(t, x, y) == (-dbx) * (qy - dby) - (-dby) * (qx - dbx);
    assert C3(t, x, y) == (dbx - dcx) * (qy - dcy) - (dby - dcy) * (qx - dcx);
  }

  /**
   * Winding does not matter: exchanging two vertices negates each edge
   * function and permutes them, and rotating the vertices only permutes them,
   * so the covered set is the same.
   */
  lemma WindingCovers(t: Tri, x: int, y: int)
    ensures Covers(t.SwapBC(), x, y) <==> Covers(t, x, y)
    ensures Covers(t.Rotate(), x, y) <==> Covers(t, x, y)
  {
    var p := Corner(x, y);
    EdgeReversed(t.a, t.b, p);
    EdgeReversed(t.c, t.a, p);
    EdgeReversed(t.b, t.c, p);
    var s := t.SwapBC();
    assert C1(s, x, y) == -C2(t, x, y);
    assert C2(s, x, y) == -C1(t, x, y);
    assert C3(s, x, y) == -C3(t, x, y);
  }

  /**
   * Every integer point of the closed triangle is covered, boundary and
   * vertices included: the point a + u(b - a) + v(c - a) with u, v >= 0 and
   * u + v <= 1 has edge functions -u, -v and -(1 - u - v) times the doubled
   * area, which all share one sign.
   */
  lemma InsideCovered(t: Tri, u: real, v: real, x: int, y: int)
    requires 0.0 <= u && 0.0 <= v && u + v <= 1.0
    requires x as real == t.a.x + u * (t.b.x - t.a.x) + v * (t.c.x - t.a.x)
    requires y as real == t.a.y + u * (t.b.y - t.a.y) + v * (t.c.y - t.a.y)
    ensures Covers(t, x, y)
  {
    var dbx, dby, dcx, dcy := t.b.x - t.a.x, t.b.y - t.a.y, t.c.x - t.a.x, t.c.y - t.a.y;
    var qx, qy := x as real - t.a.x, y as real - t.a.y;
    var d := Area2(t);
    assert d == dbx * dcy - dby * dcx;
    assert qx == u * dbx + v * dcx && qy == u * dby + v * dcy;
    assert C1(t, x, y) == dcx * qy - dcy * qx;
    assert C1(t, x, y) == -u * d by {
      assert dcx * qy == u * (dcx * dby) + v * (dcx * dcy);
      assert dcy * qx == u * (dcy * dbx) + v * (dcy * dcx);
    }
    assert C2(t, x, y) == -v * d by {
      assert C2(t, x, y) == dby * qx - dbx * qy;
      assert dby * qx == u * (dby * dbx) + v * (dby * dcx);
      assert dbx * qy == u * (dbx * dby) + v * (dbx * dcy);
    }
    EdgeSum(t, x, y);
    assert C3(t, x, y) == -(1.0 - u - v) * d;
    MulSign(u, d);
    MulSign(v, d);
    MulSign(1.0 - u - v, d);
  }

  /** A non-negative factor keeps the sign of the other. */
  lemma MulSign(k: real, d: real)
    requires 0.0 <= k
    ensures d >= 0.0 ==> -k * d <= 0.0
    ensures d <= 0.0 ==> -k * d >= 0.0
  {
  }

  /**
   * Conversely, for a triangle of non-zero area every covered point lies in
   * the closed triangle: the edge functions divided by minus the doubled area
   * are its barycentric coordinates.
   */
  lemma CoveredInside(t: Tri, x: int, y: int)
    requires Area2(t) != 0.0 && Covers(t, x, y)
    ensures var u, v := -C1(t, x, y) / Area2(t), -C2(t, x, y) / Area2(t);
            0.0 <= u && 0.0 <= v && u + v <= 1.0 &&
            x as real == t.a.x + u * (t.b.x - t.a.x) + v * (t.c.x - t.a.x) &&
            y as real == t.a.y + u * (t.b.y - t.a.y) + v * (t.c.y - t.a.y)
  {
    EdgeSum(t, x, y);
    SignedQuotients(C1(t, x, y), C2(t, x, y), C3(t, x, y), Area2(t));
    BarycentricPosition(t, x, y);
  }

  /** With a non-zero area, the edge functions over minus the doubled area locate the point. */
  lemma BarycentricPosition(t: Tri, x: int, y: int)
    requires Area2(t) != 0.0
    ensures var u, v := -C1(t, x, y) / Area2(t), -C2(t, x, y) / Area2(t);
            x as real == t.a.x + u * (t.b.x - t.a.x) + v * (t.c.x - t.a.x) &&
            y as real == t.a.y + u * (t.b.y - t.a.y) + v * (t.c.y - t.a.y)
  {
    var p := Corner(x, y);
    var ab, ac, ap := Vec(t.a, t.b), Vec(t.a, t.c), Vec(t.a, p);
    assert Area2(t) == ab.x * ac.y - ab.y * ac.x;
    assert C1(t, x, y) == ac.x * ap.y - ac.y * ap.x;
    EdgeReversed(t.a, t.b, p);
    assert C2(t, x, y) == ab.y * ap.x - ab.x * ap.y;
    Cramer(ab.x, ab.y, ac.x, ac.y, ap.x, ap.y, Area2(t), C1(t, x, y), C2(t, x, y));
  }

  /** Cramer's rule for q = s (ux, uy) + r (vx, vy), with the edge functions as numerators. */
  lemma Cramer(ux: real, uy: real, vx: real, vy: real, qx: real, qy: real, d: real, c1: real, c2: real)
    requires d == ux * vy - uy * vx && d != 0.0
    requires c1 == vx * qy - vy * qx && c2 == uy * qx - ux * qy
    ensures (-c1 / d) * ux + (-c2 / d) * vx == qx && (-c1 / d) * uy + (-c2 / d) * vy == qy
  {
    assert c1 * ux + c2 * vx == -d * qx;
    assert c1 * uy + c2 * vy == -d * qy;
    assert (-c1 / d) * ux + (-c2 / d) * vx == -(c1 * ux + c2 * vx) / d;
    assert (-c1 / d) * uy + (-c2 / d) * vy == -(c1 * uy + c2 * vy) / d;
  }

  /** Three numbers of one sign summing to -d, divided by -d, are barycentric weights. */
  lemma SignedQuotients(c1: real, c2: real, c3: real, d: real)
    requires d != 0.0 && c1 + c2 + c3 == -d
    requires (c1 >= 0.0 && c2 >= 0.0 && c3 >= 0.0) || (c1 <= 0.0 && c2 <= 0.0 && c3 <= 0.0)
    ensures 0.0 <= -c1 / d && 0.0 <= -c2 / d && -c1 / d + -c2 / d <= 1.0
  {
    QuotientSum(-c1, -c2, -c3, d);
    if d > 0.0 {
      assert c1 <= 0.0 && c2 <= 0.0 && c3 <= 0.0;
    } else {
      assert c1 >= 0.0 && c2 >= 0.0 && c3 >= 0.0;
    }
    QuotientNonNegative(-c1, d);
    QuotientNonNegative(-c2, d);
    QuotientNonNegative(-c3, d);
  }

  /** Three numbers summing to d, each divided by d, sum to one. */
  lemma QuotientSum(n1: real, n2: real, n3: real, d: real)
    requires d != 0.0 && n1 + n2 + n3 == d
    ensures n1 / d + n2 / d + n3 / d == 1.0
  {
    var q1, q2, q3 := n1 / d, n2 / d, n3 / d;
    assert q1 * d == n1 && q2 * d == n2 && q3 * d == n3;
    assert (q1 + q2 + q3) * d == n1 + n2 + n3;
    assert q1 + q2 + q3 == (n1 + n2 + n3) / d;
  }

  /** A quotient of two numbers of the same sign is non-negative. */
  lemma QuotientNonNegative(n: real, d: real)
    requires (0.0 <= n && 0.0 < d) || (n <= 0.0 && d < 0.0)
    ensures 0.0 <= n / d
  {
    if d > 0.0 {
      assert n / d * d == n;
    } else {
      assert -n / -d == n / d;
    }
  }

  /**
   * A degenerate (zero-area) triangle covers exactly the points where all
   * three edge functions vanish: the boundary is all there is.
   */
  lemma FlatCovers(t: Tri, x: int, y: int)
    requires Area2(t) == 0.0
    ensures Covers(t, x, y) <==> C1(t, x, y) == 0.0 && C2(t, x, y) == 0.0 && C3(t, x, y) == 0.0
  {
    EdgeSum(t, x, y);
  }

  /** When the three vertices coincide every edge vector is zero, so every point is covered. */
  lemma CoincidentCovers(t: Tri)
    requires t.a == t.b == t.c
    ensures forall x: int, y: int :: Covers(t, x, y)
  {
  }

  // The scan order. The cursor (ix, iy) has the rest of row iy ahead of it
  // (nothing when ix >= maxx), then the rows iy + 1, ..., maxy - 1.

  /** The candidates (ix, iy), (ix + 1, iy), ..., (maxx - 1, iy). */
  function RowFrom(ix: int, iy: int, maxx: int): seq<(int, int)>
    decreases maxx - ix
  {
    if ix >= maxx then [] else [(ix, iy)] + RowFrom(ix + 1, iy, maxx)
  }

  /**
   * The candidates of row y entered by a wrap: the wrap puts the cursor on
   * (minx, y) and examines it without comparing against maxx again, so that
   * one is examined even when minx == maxx.
   */
  function WrappedRow(y: int, b: Box): seq<(int, int)>
  {
    [(b.minx, y)] + RowFrom(b.minx + 1, y, b.maxx)
  }

  /** The wrapped rows lo, lo + 1, ..., maxy - 1. */
  function Rows(lo: int, b: Box): seq<(int, int)>
    decreases b.maxy - lo
  {
    if lo >= b.maxy then [] else WrappedRow(lo, b) + Rows(lo + 1, b)
  }

  /** The candidates the cursor (ix, iy) will examine before `next` reports the end. */
  function Pending(b: Box, ix: int, iy: int): seq<(int, int)>
  {
    RowFrom(ix, iy, b.maxx) + Rows(iy + 1, b)
  }

  /** What examining the candidate (x, y) produces: its pixel, with full coverage weight, if covered. */
  function Emit(t: Tri, x: int, y: int): seq<Pixel>
  {
    if Covers(t, x, y) then [Pixel(x, y, 1.0)] else []
  }

  /** The pixels a run of candidates produces: the covered ones, in order. */
  function Rasterize(t: Tri, cands: seq<(int, int)>): seq<Pixel>
    decreases |cands|
  {
    if cands == [] then [] else Emit(t, cands[0].0, cands[0].1) + Rasterize(t, cands[1..])
  }

  /**
   * The pixels still to come from the cursor (ix, iy), cursor step by cursor
   * step: past the end of the row it wraps to (minx, iy + 1) and examines that
   * point, unless row iy + 1 is not below maxy.
   */
  function Scan(t: Tri, b: Box, ix: int, iy: int): seq<Pixel>
    decreases if iy < b.maxy then b.maxy - iy else 0, b.maxx - ix
  {
    if ix >= b.maxx then
      if iy + 1 >= b.maxy then [] else Emit(t, b.minx, iy + 1) + Scan(t, b, b.minx + 1, iy + 1)
    else
      Emit(t, ix, iy) + Scan(t, b, ix + 1, iy)
  }

  /** Every pixel still to come is covered, has weight 1, and lies at or after the cursor in row-major order. */
  lemma {:induction false} ScanCovered(t: Tri, b: Box, ix: int, iy: int)
    ensures forall p | p in Scan(t, b, ix, iy) ::
              p.aa == 1.0 && Covers(t, p.x, p.y) && (iy < p.y || (iy == p.y && ix <= p.x))
    decreases if iy < b.maxy then b.maxy - iy else 0, b.maxx - ix
  {
    if ix >= b.maxx {
      if iy + 1 < b.maxy {
        ScanCovered(t, b, b.minx + 1, iy + 1);
      }
    } else {
      ScanCovered(t, b, ix + 1, iy);
    }
  }

  /** Everything a fresh iterator over t yields before its first `None`. */
  function Yields(t: Tri): seq<Pixel>
  {
    var b := BoundingBox(t);
    Rasterize(t, Pending(b, b.minx, b.miny))
  }

  /**
   * The points a fresh iterator examines: row miny from minx up to maxx - 1
   * (even when miny == maxy), and on each later row below maxy the columns
   * minx up to max(maxx, minx + 1) - 1.
   */
  predicate Scanned(b: Box, x: int, y: int)
  {
    (y == b.miny && b.minx <= x < b.maxx) ||
    (b.miny < y < b.maxy && b.minx <= x < Max(b.maxx, b.minx + 1))
  }

  lemma {:induction false} RowFromMembers(ix: int, iy: int, maxx: int, x: int, y: int)
    ensures (x, y) in RowFrom(ix, iy, maxx) <==> y == iy && ix <= x < maxx
    decreases maxx - ix
  {
    if ix < maxx {
      RowFromMembers(ix + 1, iy, maxx, x, y);
    }
  }

  lemma {:induction false} RowsMembers(lo: int, b: Box, x: int, y: int)
    ensures (x, y) in Rows(lo, b) <==> lo <= y < b.maxy && b.minx <= x < Max(b.maxx, b.minx + 1)
    decreases b.maxy - lo
  {
    if lo < b.maxy {
      RowFromMembers(b.minx + 1, lo, b.maxx, x, y);
      RowsMembers(lo + 1, b, x, y);
    }
  }

  /** A run of candidates yields exactly its covered members, each with weight 1. */
  lemma {:induction false} RasterizeMembers(t: Tri, cands: seq<(int, int)>, p: Pixel)
    ensures p in Rasterize(t, cands) <==> p.aa == 1.0 && (p.x, p.y) in cands && Covers(t, p.x, p.y)
    decreases |cands|
  {
    if cands != [] {
      RasterizeMembers(t, cands[1..], p);
      assert cands == [cands[0]] + cands[1..];
    }
  }

  /** The first step of a run of candidates. */
  lemma RasterizeCons(t: Tri, c: (int, int), rest: seq<(int, int)>)
    ensures Rasterize(t, [c] + rest) == Emit(t, c.0, c.1) + Rasterize(t, rest)
  {
    assert ([c] + rest)[1..] == rest;
  }

  /** Following the cursor step by step examines exactly the pending candidates, in order. */
  lemma {:induction false} ScanPending(t: Tri, b: Box, ix: int, iy: int)
    ensures Scan(t, b, ix, iy) == Rasterize(t, Pending(b, ix, iy))
    decreases if iy < b.maxy then b.maxy - iy else 0, b.maxx - ix
  {
    if ix >= b.maxx {
      if iy + 1 < b.maxy {
        ScanPending(t, b, b.minx + 1, iy + 1);
        PendingWrap(b, ix, iy);
        RasterizeCons(t, (b.minx, iy + 1), Pending(b, b.minx + 1, iy + 1));
      }
    } else {
      ScanPending(t, b, ix + 1, iy);
      PendingPop(b, ix, iy);
      RasterizeCons(t, (ix, iy), Pending(b, ix + 1, iy));
    }
  }

  /** Triangles that cover the same candidates rasterize them alike. */
  lemma {:induction false} RasterizeSame(t: Tri, s: Tri, cands: seq<(int, int)>)
    requires forall i | 0 <= i < |cands| :: Covers(t, cands[i].0, cands[i].1) == Covers(s, cands[i].0, cands[i].1)
    ensures Rasterize(t, cands) == Rasterize(s, cands)
    decreases |cands|
  {
    if cands != [] {
      RasterizeSame(t, s, cands[1..]);
    }
  }

  /** A fresh iterator yields exactly the covered points it scans, each with weight 1. */
  lemma YieldsMembers(t: Tri, p: Pixel)
    ensures p in Yields(t) <==> p.aa == 1.0 && Scanned(BoundingBox(t), p.x, p.y) && Covers(t, p.x, p.y)
  {
    var b := BoundingBox(t);
    RasterizeMembers(t, Pending(b, b.minx, b.miny), p);
    PendingMembers(b, p.x, p.y);
  }

  /** A fresh cursor has exactly the scanned points of the box pending. */
  lemma PendingMembers(b: Box, x: int, y: int)
    ensures (x, y) in Pending(b, b.minx, b.miny) <==> Scanned(b, x, y)
  {
    RowFromMembers(b.minx, b.miny, b.maxx, x, y);
    RowsMembers(b.miny + 1, b, x, y);
  }

  /**
   * For a box at least one pixel wide and tall, a fresh iterator yields
   * exactly the covered integer corners of the half-open box
   * [minx, maxx) x [miny, maxy).
   */
  lemma YieldsInBox(t: Tri, p: Pixel)
    requires var b := BoundingBox(t); b.minx < b.maxx && b.miny < b.maxy
    ensures var b := BoundingBox(t);
            p in Yields(t) <==>
              p.aa == 1.0 && b.minx <= p.x < b.maxx && b.miny <= p.y < b.maxy && Covers(t, p.x, p.y)
  {
    YieldsMembers(t, p);
  }

  /**
   * The two edge cases the source's debug assertions rule out but its loop
   * allows: a box of height zero still has its row miny scanned, and a box
   * of width zero has its column maxx scanned on the rows strictly between
   * miny and maxy (and row miny skipped).
   */
  lemma ScannedOutsideBox(b: Box, x: int, y: int)
    ensures b.miny == b.maxy ==> (Scanned(b, x, y) <==> y == b.maxy && b.minx <= x < b.maxx)
    ensures b.minx == b.maxx ==> (Scanned(b, x, y) <==> x == b.maxx && b.miny < y < b.maxy)
  {
  }

  /** Strict row-major order: an earlier row, or the same row and an earlier column. */
  predicate Before(p: (int, int), q: (int, int))
  {
    p.1 < q.1 || (p.1 == q.1 && p.0 < q.0)
  }

  predicate Ascending(s: seq<(int, int)>)
  {
    forall i, j | 0 <= i < j < |s| :: Before(s[i], s[j])
  }

  function At(p: Pixel): (int, int) { (p.x, p.y) }

  predicate AscendingPixels(s: seq<Pixel>)
  {
    forall i, j | 0 <= i < j < |s| :: Before(At(s[i]), At(s[j]))
  }

  lemma {:induction false} RowFromAscending(ix: int, iy: int, maxx: int)
    ensures Ascending(RowFrom(ix, iy, maxx))
    decreases maxx - ix
  {
    if ix < maxx {
      RowFromAscending(ix + 1, iy, maxx);
      var r := RowFrom(ix + 1, iy, maxx);
      forall k | 0 <= k < |r|
        ensures Before((ix, iy), r[k])
      {
        RowFromMembers(ix + 1, iy, maxx, r[k].0, r[k].1);
      }
    }
  }

  /** Two ascending runs, the first wholly before the second, join into an ascending run. */
  lemma JoinAscending(s: seq<(int, int)>, u: seq<(int, int)>)
    requires Ascending(s) && Ascending(u)
    requires forall i, j | 0 <= i < |s| && 0 <= j < |u| :: Before(s[i], u[j])
    ensures Ascending(s + u)
  {
  }

  /** The rest of row iy, followed by the later rows from lo on, is ascending. */
  lemma RowThenRows(r: seq<(int, int)>, iy: int, lo: int, b: Box)
    requires Ascending(r) && Ascending(Rows(lo, b)) && iy < lo
    requires forall k | 0 <= k < |r| :: r[k].1 == iy
    ensures Ascending(r + Rows(lo, b))
  {
    var rest := Rows(lo, b);
    forall i, j | 0 <= i < |r| && 0 <= j < |rest|
      ensures Before(r[i], rest[j])
    {
      RowsMembers(lo, b, rest[j].0, rest[j].1);
    }
    JoinAscending(r, rest);
  }

  lemma {:induction false} RowsAscending(lo: int, b: Box)
    ensures Ascending(Rows(lo, b))
    decreases b.maxy - lo
  {
    if lo < b.maxy {
      var r, tail := WrappedRow(lo, b), RowFrom(b.minx + 1, lo, b.maxx);
      RowFromAscending(b.minx + 1, lo, b.maxx);
      forall k | 0 <= k < |tail|
        ensures tail[k].1 == lo && Before((b.minx, lo), tail[k])
      {
        RowFromMembers(b.minx + 1, lo, b.maxx, tail[k].0, tail[k].1);
      }
      JoinAscending([(b.minx, lo)], tail);
      RowsAscending(lo + 1, b);
      RowThenRows(r, lo, lo + 1, b);
    }
  }

  /** The cursor's pending candidates are in strict row-major order. */
  lemma PendingAscending(b: Box, ix: int, iy: int)
    ensures Ascending(Pending(b, ix, iy))
  {
    var r := RowFrom(ix, iy, b.maxx);
    RowFromAscending(ix, iy, b.maxx);
    forall k | 0 <= k < |r|
      ensures r[k].1 == iy
    {
      RowFromMembers(ix, iy, b.maxx, r[k].0, r[k].1);
    }
    RowsAscending(iy + 1, b);
    RowThenRows(r, iy, iy + 1, b);
  }

  /** Dropping the uncovered candidates keeps the order. */
  lemma {:induction false} RasterizeAscending(t: Tri, cands: seq<(int, int)>)
    requires Ascending(cands)
    ensures AscendingPixels(Rasterize(t, cands))
    decreases |cands|
  {
    if cands != [] {
      var c, rest := cands[0], cands[1..];
      assert Ascending(rest);
      RasterizeAscending(t, rest);
      var tail := Rasterize(t, rest);
      forall k | 0 <= k < |tail|
        ensures Before(c, At(tail[k]))
      {
        RasterizeMembers(t, rest, tail[k]);
        var j :| 0 <= j < |rest| && rest[j] == At(tail[k]);
        assert cands[j + 1] == rest[j];
      }
    }
  }

  /** A fresh iterator yields its pixels in strictly increasing row-major order, hence never twice. */
  lemma YieldsAscending(t: Tri)
    ensures AscendingPixels(Yields(t))
    ensures forall i, j | 0 <= i < j < |Yields(t)| :: Yields(t)[i] != Yields(t)[j]
  {
    var b := BoundingBox(t);
    PendingAscending(b, b.minx, b.miny);
    RasterizeAscending(t, Pending(b, b.minx, b.miny));
  }

  lemma {:induction false} RasterizeLength(t: Tri, cands: seq<(int, int)>)
    ensures |Rasterize(t, cands)| <= |cands|
    decreases |cands|
  {
    if cands != [] {
      RasterizeLength(t, cands[1..]);
    }
  }

  lemma {:induction false} RowFromLength(ix: int, iy: int, maxx: int)
    ensures |RowFrom(ix, iy, maxx)| == Max(maxx - ix, 0)
    decreases maxx - ix
  {
    if ix < maxx {
      RowFromLength(ix + 1, iy, maxx);
    }
  }

  lemma {:induction false} RowsLength(lo: int, b: Box)
    requires b.minx <= b.maxx
    ensures |Rows(lo, b)| == Max(b.maxy - lo, 0) * Max(b.maxx - b.minx, 1)
    decreases b.maxy - lo
  {
    if lo < b.maxy {
      RowFromLength(b.minx + 1, lo, b.maxx);
      RowsLength(lo + 1, b);
      var h, w := b.maxy - lo, Max(b.maxx - b.minx, 1);
      assert |WrappedRow(lo, b)| == w;
      assert h * w == w + (h - 1) * w;
    }
  }

  /**
   * From the start of a box of width w and height h the iterator examines
   * w + max(h - 1, 0) * max(w, 1) candidates, which is w * max(h, 1) when
   * w >= 1.
   */
  lemma PendingCount(b: Box)
    requires b.minx <= b.maxx
    ensures var w, h := b.maxx - b.minx, b.maxy - b.miny;
            |Pending(b, b.minx, b.miny)| == w + Max(h - 1, 0) * Max(w, 1) &&
            (w >= 1 ==> w + Max(h - 1, 0) * Max(w, 1) == w * Max(h, 1))
  {
    RowFromLength(b.minx, b.miny, b.maxx);
    RowsLength(b.miny + 1, b);
    var w, h := b.maxx - b.minx, b.maxy - b.miny;
    if w >= 1 {
      MulOneMore(w, Max(h - 1, 0));
    }
  }

  /** A fresh iterator yields at most as many pixels as it examines candidates before its first `None`. */
  lemma YieldsCount(t: Tri)
    ensures var b := BoundingBox(t);
            var w, h := b.maxx - b.minx, b.maxy - b.miny;
            |Yields(t)| <= |Pending(b, b.minx, b.miny)| == w + Max(h - 1, 0) * Max(w, 1)
  {
    var b := BoundingBox(t);
    PendingCount(b);
    RasterizeLength(t, Pending(b, b.minx, b.miny));
  }

  lemma MulOneMore(w: int, k: nat)
    ensures w + k * w == w * (k + 1)
  {
  }

  /** The yielded pixels do not depend on the winding or on which vertex comes first. */
  lemma WindingIndependent(t: Tri)
    ensures Yields(t.SwapBC()) == Yields(t)
    ensures Yields(t.Rotate()) == Yields(t)
  {
    var b := BoundingBox(t);
    assert BoundingBox(t.SwapBC()) == b;
    assert BoundingBox(t.Rotate()) == b;
    var cands := Pending(b, b.minx, b.miny);
    forall i | 0 <= i < |cands|
      ensures Covers(t.SwapBC(), cands[i].0, cands[i].1) == Covers(t, cands[i].0, cands[i].1)
      ensures Covers(t.Rotate(), cands[i].0, cands[i].1) == Covers(t, cands[i].0, cands[i].1)
    {
      WindingCovers(t, cands[i].0, cands[i].1);
    }
    RasterizeSame(t.SwapBC(), t, cands);
    RasterizeSame(t.Rotate(), t, cands);
  }

  /** When the vertices coincide, a fresh iterator yields every point it scans, each with weight 1. */
  lemma CoincidentYields(t: Tri)
    requires t.a == t.b == t.c
    ensures forall x, y | Scanned(BoundingBox(t), x, y) :: Pixel(x, y, 1.0) in Yields(t)
  {
    CoincidentCovers(t);
    forall x, y | Scanned(BoundingBox(t), x, y)
      ensures Pixel(x, y, 1.0) in Yields(t)
    {
      YieldsMembers(t, Pixel(x, y, 1.0));
    }
  }

  /** Examining (ix, iy) when the cursor is inside its row. */
  lemma PendingPop(b: Box, ix: int, iy: int)
    requires ix < b.maxx
    ensures Pending(b, ix, iy) == [(ix, iy)] + Pending(b, ix + 1, iy)
  {
  }

  /** Wrapping past the end of row iy: (minx, iy + 1) is examined next, if that row is below maxy. */
  lemma PendingWrap(b: Box, ix: int, iy: int)
    requires ix >= b.maxx
    ensures Pending(b, ix, iy) ==
              if iy + 1 < b.maxy then [(b.minx, iy + 1)] + Pending(b, b.minx + 1, iy + 1) else []
  {
  }

  /** The source's inline evaluation of the three edge functions, from the stored edge vectors. */
  lemma EdgeTerms(t: Tri, ac: Point, ba: Point, cb: Point, x: int, y: int)
    requires ac == Vec(t.a, t.c) && ba == Vec(t.b, t.a) && cb == Vec(t.c, t.b)
    ensures PerpDot(ac, Vec(t.a, Corner(x, y))) == C1(t, x, y)
    ensures PerpDot(ba, Vec(t.b, Corner(x, y))) == C2(t, x, y)
    ensures PerpDot(cb, Vec(t.c, Corner(x, y))) == C3(t, x, y)
  {
  }

  /**
   * The state of `FillTriangleIter`: the vertices a, b, c (the source keeps
   * their six coordinates as separate fields), the box and the three edge
   * vectors are fixed by `new`; the cursor (ix, iy) is the next candidate.
   */
  class FillTriangleIter {
    const a: Point
    const b: Point
    const c: Point
    const minx: int
    const miny: int
    const maxx: int
    const maxy: int
    var ix: int
    var iy: int
    const acx: real
    const acy: real
    const bax: real
    const bay: real
    const cbx: real
    const cby: real

    function Vertices(): Tri
    {
      Tri(a, b, c)
    }

    function Bounds(): Box
    {
      Box(minx, miny, maxx, maxy)
    }

    ghost predicate Valid()
      reads this
    {
      Bounds() == BoundingBox(Vertices()) &&
      Point(acx, acy) == Vec(a, c) && Point(bax, bay) == Vec(b, a) && Point(cbx, cby) == Vec(c, b) &&
      minx <= ix <= Max(maxx, minx + 1)
    }

    /** The pixels still to come before the next `None`. */
    ghost function Remaining(): seq<Pixel>
      reads this
      requires Valid()
    {
      Scan(Vertices(), Bounds(), ix, iy)
    }

    /** `FillTriangleIter::new`: the bounding box, the three edge vectors, and the cursor at (minx, miny). */
    constructor (a: Point, b: Point, c: Point)
      ensures Valid() && Vertices() == Tri(a, b, c)
      ensures ix == minx && iy == miny
      ensures Remaining() == Yields(Tri(a, b, c))
    {
      var box := BoundingBox(Tri(a, b, c));
      ScanPending(Tri(a, b, c), box, box.minx, box.miny);
      var ac, ba, cb := Vec(a, c), Vec(b, a), Vec(c, b);
      this.a, this.b, this.c := a, b, c;
      minx, miny, maxx, maxy := box.minx, box.miny, box.maxx, box.maxy;
      ix, iy := box.minx, box.miny;
      acx, acy, bax, bay, cbx, cby := ac.x, ac.y, ba.x, ba.y, cb.x, cb.y;
    }

    /**
     * `Iterator::next`: yields the next covered candidate and leaves the
     * cursor just after it; or, once none is left, returns `None` with the
     * cursor at the start of row max(iy + 1, maxy). The iterator is not
     * fused: a later call scans that row.
     */
    method Next() returns (r: Option<Pixel>)
      requires Valid()
      modifies this
      ensures Valid()
      ensures old(Remaining()) != [] ==>
                r == Some(old(Remaining())[0]) && Remaining() == old(Remaining())[1..] &&
                ix == r.value.x + 1 && iy == r.value.y
      ensures old(Remaining()) == [] ==> r == None && ix == minx && iy == Max(old(iy) + 1, maxy)
    {
      while true
        invariant Valid()
        invariant Remaining() == old(Remaining())
        invariant iy == old(iy) || old(iy) < iy < maxy
        decreases if iy < maxy then maxy - iy else 0, Max(maxx, minx + 1) - ix
      {
        if ix >= maxx {
          ix := minx;
          iy := iy + 1;
          if iy >= maxy {
            return None;
          }
        }
        var x, y := ix, iy;
        ix := ix + 1;
        var p := Corner(x, y);
        var ap, bp, cp := Vec(a, p), Vec(b, p), Vec(c, p);
        var c1 := PerpDot(Point(acx, acy), ap);
        var c2 := PerpDot(Point(bax, bay), bp);
        var c3 := PerpDot(Point(cbx, cby), cp);
        EdgeTerms(Vertices(), Point(acx, acy), Point(bax, bay), Point(cbx, cby), x, y);
        if SameSign(c1, c2, c3) {
          return Some(Pixel(x, y, 1.0));
        }
      }
    }
  }

  /** `fill_triangle_iter`: a fresh iterator over the triangle a, b, c. */
  method MakeFillTriangleIter(a: Point, b: Point, c: Point) returns (it: FillTriangleIter)
    ensures fresh(it) && it.Valid() && it.Vertices() == Tri(a, b, c)
    ensures it.Remaining() == Yields(Tri(a, b, c))
  {
    it := new FillTriangleIter(a, b, c);
  }

  /** Drains a fresh iterator up to its first `None`, as `collect()` does. */
  method CollectFill(a: Point, b: Point, c: Point) returns (pixels: seq<Pixel>)
    ensures pixels == Yields(Tri(a, b, c))
  {
    ghost var all := Yields(Tri(a, b, c));
    var it := new FillTriangleIter(a, b, c);
    pixels := [];
    while true
      invariant it.Valid() && it.Vertices() == Tri(a, b, c)
      invariant pixels + it.Remaining() == all
      decreases |it.Remaining()|
    {
      ghost var rest := it.Remaining();
      var p := it.Next();
      if p.None? {
        break;
      }
      assert rest == [p.value] + it.Remaining();
      pixels := pixels + [p.value];
    }
  }
}

=== FILE: triangle_tests.dfy ===
/**
 * Concrete runs of the triangle fill iterator, worked out on the model.
 * They pin down how the code treats a general triangle, a point, a
 * horizontal and a vertical sliver, and a call after the end.
 *
 * Each run is proved in layers: the three edge functions of the triangle
 * written as linear forms in the point; which corners of each scanned row
 * are covered, for every x; the scan of the bounding box for any triangle
 * with those coverage facts; and `YieldsFrom`, which turns the scan of the
 * bounding box into what the iterator yields.
 */
module TriangleTests {
  import opened Types
  import opened Triangle

  /** A triangle yields what the scan of its bounding box from the first corner yields. */
  lemma YieldsFrom(t: Tri, b: Box, s: seq<Pixel>)
    requires BoundingBox(t) == b && Scan(t, b, b.minx, b.miny) == s
    ensures Yields(t) == s
  {
    ScanPending(t, b, b.minx, b.miny);
  }

  // ---------------------------------------------------------------------
  // A general triangle

  /** A triangle with a horizontal bottom edge, from (1, 2) through (5, 2) to (7, 4). */
  const Slanted := Tri(Point(1.0, 2.0), Point(5.0, 2.0), Point(7.0, 4.0))

  /** The three edge functions of `Slanted` at a point p, as linear forms. */
  lemma SlantedEdges(p: Point)
    ensures Edge(Slanted.a, Slanted.c, p) == 6.0 * (p.y - 2.0) - 2.0 * (p.x - 1.0)
    ensures Edge(Slanted.b, Slanted.a, p) == -4.0 * (p.y - 2.0)
    ensures Edge(Slanted.c, Slanted.b, p) == 2.0 * (p.x - 7.0) - 2.0 * (p.y - 4.0)
  {
  }

  lemma SlantedCovers(x: int, y: int)
    ensures Covers(Slanted, x, y) <==>
            SameSign(6.0 * (y as real - 2.0) - 2.0 * (x as real - 1.0),
                     -4.0 * (y as real - 2.0),
                     2.0 * (x as real - 7.0) - 2.0 * (y as real - 4.0))
  {
    SlantedEdges(Corner(x, y));
  }

  /** On row 2 the corners covered are those of the bottom edge, from vertex a to vertex b. */
  lemma SlantedRow2(x: int)
    ensures Covers(Slanted, x, 2) <==> 1 <= x <= 5
  {
    SlantedCovers(x, 2);
  }

  /** On row 3, x = 1 to 3 lie left of edge a-c and x = 7 right of edge c-b. */
  lemma SlantedRow3(x: int)
    ensures Covers(Slanted, x, 3) <==> 4 <= x <= 6
  {
    SlantedCovers(x, 3);
  }

  /** The scan of the box [1, 7) x [2, 4) for any triangle covering what `Slanted` covers. */
  lemma SlantedScan(t: Tri, b: Box)
    requires b == Box(1, 2, 7, 4)
    requires Covers(t, 1, 2) && Covers(t, 2, 2) && Covers(t, 3, 2)
    requires Covers(t, 4, 2) && Covers(t, 5, 2) && !Covers(t, 6, 2)
    requires !Covers(t, 1, 3) && !Covers(t, 2, 3) && !Covers(t, 3, 3)
    requires Covers(t, 4, 3) && Covers(t, 5, 3) && Covers(t, 6, 3)
    ensures Scan(t, b, 1, 2) ==
            [Pixel(1, 2, 1.0), Pixel(2, 2, 1.0), Pixel(3, 2, 1.0), Pixel(4, 2, 1.0), Pixel(5, 2, 1.0),
             Pixel(4, 3, 1.0), Pixel(5, 3, 1.0), Pixel(6, 3, 1.0)]
  {
  }

  lemma SlantedBox()
    ensures BoundingBox(Slanted) == Box(1, 2, 7, 4)
  {
  }

  lemma SlantedScanned(b: Box)
    requires b == Box(1, 2, 7, 4)
    ensures Scan(Slanted, b, b.minx, b.miny) ==
            [Pixel(1, 2, 1.0), Pixel(2, 2, 1.0), Pixel(3, 2, 1.0), Pixel(4, 2, 1.0), Pixel(5, 2, 1.0),
             Pixel(4, 3, 1.0), Pixel(5, 3, 1.0), Pixel(6, 3, 1.0)]
  {
    SlantedRow2(1); SlantedRow2(2); SlantedRow2(3); SlantedRow2(4); SlantedRow2(5); SlantedRow2(6);
    SlantedRow3(1); SlantedRow3(2); SlantedRow3(3); SlantedRow3(4); SlantedRow3(5); SlantedRow3(6);
    SlantedScan(Slanted, b);
  }

  /**
   * The code samples integer corners and keeps both boundaries, so the whole
   * bottom edge y = 2 from x = 1 to 5 is filled, and row 3 from x = 4 to 6.
   */
  lemma SlantedYields()
    ensures BoundingBox(Slanted) == Box(1, 2, 7, 4)
    ensures Yields(Slanted) ==
            [Pixel(1, 2, 1.0), Pixel(2, 2, 1.0), Pixel(3, 2, 1.0), Pixel(4, 2, 1.0), Pixel(5, 2, 1.0),
             Pixel(4, 3, 1.0), Pixel(5, 3, 1.0), Pixel(6, 3, 1.0)]
  {
    var b := BoundingBox(Slanted);
    SlantedBox();
    SlantedScanned(b);
    YieldsFrom(Slanted, b, Scan(Slanted, b, b.minx, b.miny));
  }

  // ---------------------------------------------------------------------
  // A point

  /** Three copies of one non-integral point. */
  const Dot := Tri(Point(4.5, 7.5), Point(4.5, 7.5), Point(4.5, 7.5))

  lemma DotBox()
    ensures BoundingBox(Dot) == Box(4, 7, 5, 8)
  {
  }

  lemma DotScan(t: Tri, b: Box)
    requires b == Box(4, 7, 5, 8) && Covers(t, 4, 7)
    ensures Scan(t, b, 4, 7) == [Pixel(4, 7, 1.0)]
  {
  }

  lemma DotScanned(b: Box)
    requires b == Box(4, 7, 5, 8)
    ensures Scan(Dot, b, b.minx, b.miny) == [Pixel(4, 7, 1.0)]
  {
    CoincidentCovers(Dot);
    DotScan(Dot, b);
  }

  /** A point triangle still yields the corner of the one pixel its box spans. */
  lemma DotYields()
    ensures BoundingBox(Dot) == Box(4, 7, 5, 8)
    ensures Yields(Dot) == [Pixel(4, 7, 1.0)]
  {
    var b := BoundingBox(Dot);
    DotBox();
    DotScanned(b);
    YieldsFrom(Dot, b, Scan(Dot, b, b.minx, b.miny));
  }

  /**
   * Three copies of one integer point yield nothing: the box has width and
   * height zero, so `next` wraps past its only row before examining a corner.
   */
  lemma IntegralDotYieldsNothing(x: int, y: int)
    ensures var p := Point(x as real, y as real);
            BoundingBox(Tri(p, p, p)) == Box(x, y, x, y) && Yields(Tri(p, p, p)) == []
  {
    var p := Point(x as real, y as real);
    var b := BoundingBox(Tri(p, p, p));
    assert b == Box(x, y, x, y);
    PendingCount(b);
    RasterizeLength(Tri(p, p, p), Pending(b, b.minx, b.miny));
  }

  // ---------------------------------------------------------------------
  // A horizontal sliver

  /** Three collinear points on the row y = 2. */
  const Flat := Tri(Point(1.0, 2.0), Point(6.0, 2.0), Point(8.0, 2.0))

  /** The edge functions of `Flat` measure only the height above the line y = 2. */
  lemma FlatEdges(p: Point)
    ensures Edge(Flat.a, Flat.c, p) == 7.0 * (p.y - 2.0)
    ensures Edge(Flat.b, Flat.a, p) == -5.0 * (p.y - 2.0)
    ensures Edge(Flat.c, Flat.b, p) == -2.0 * (p.y - 2.0)
  {
  }

  /** Every corner of the line y = 2 is covered, and no other. */
  lemma FlatCoversRow(x: int, y: int)
    ensures Covers(Flat, x, y) <==> y == 2
  {
    FlatEdges(Corner(x, y));
  }

  lemma FlatScan(t: Tri, b: Box)
    requires b == Box(1, 2, 8, 2)
    requires Covers(t, 1, 2) && Covers(t, 2, 2) && Covers(t, 3, 2) && Covers(t, 4, 2)
    requires Covers(t, 5, 2) && Covers(t, 6, 2) && Covers(t, 7, 2)
    ensures Scan(t, b, 1, 2) ==
            [Pixel(1, 2, 1.0), Pixel(2, 2, 1.0), Pixel(3, 2, 1.0), Pixel(4, 2, 1.0),
             Pixel(5, 2, 1.0), Pixel(6, 2, 1.0), Pixel(7, 2, 1.0)]
  {
  }

  lemma FlatBox()
    ensures BoundingBox(Flat) == Box(1, 2, 8, 2)
  {
  }

  lemma FlatScanned(b: Box)
    requires b == Box(1, 2, 8, 2)
    ensures Scan(Flat, b, b.minx, b.miny) ==
            [Pixel(1, 2, 1.0), Pixel(2, 2, 1.0), Pixel(3, 2, 1.0), Pixel(4, 2, 1.0),
             Pixel(5, 2, 1.0), Pixel(6, 2, 1.0), Pixel(7, 2, 1.0)]
  {
    FlatCoversRow(1, 2); FlatCoversRow(2, 2); FlatCoversRow(3, 2); FlatCoversRow(4, 2);
    FlatCoversRow(5, 2); FlatCoversRow(6, 2); FlatCoversRow(7, 2);
    FlatScan(Flat, b);
  }

  /** A box of height zero: row miny == maxy is still scanned, and all of it lies on the line. */
  lemma FlatYields()
    ensures BoundingBox(Flat) == Box(1, 2, 8, 2)
    ensures Yields(Flat) ==
            [Pixel(1, 2, 1.0), Pixel(2, 2, 1.0), Pixel(3, 2, 1.0), Pixel(4, 2, 1.0),
             Pixel(5, 2, 1.0), Pixel(6, 2, 1.0), Pixel(7, 2, 1.0)]
  {
    var b := BoundingBox(Flat);
    FlatBox();
    FlatScanned(b);
    YieldsFrom(Flat, b, Scan(Flat, b, b.minx, b.miny));
  }

  // ---------------------------------------------------------------------
  // A vertical sliver

  /** Three collinear points on the column x = 2. */
  const Upright := Tri(Point(2.0, 1.0), Point(2.0, 2.0), Point(2.0, 4.0))

  /** The edge functions of `Upright` measure only the distance from the line x = 2. */
  lemma UprightEdges(p: Point)
    ensures Edge(Upright.a, Upright.c, p) == -3.0 * (p.x - 2.0)
    ensures Edge(Upright.b, Upright.a, p) == p.x - 2.0
    ensures Edge(Upright.c, Upright.b, p) == 2.0 * (p.x - 2.0)
  {
  }

  /** Every corner of the line x = 2 is covered, and no other. */
  lemma UprightCoversColumn(x: int, y: int)
    ensures Covers(Upright, x, y) <==> x == 2
  {
    UprightEdges(Corner(x, y));
  }

  lemma UprightScan(t: Tri, b: Box)
    requires b == Box(2, 1, 2, 4)
    requires Covers(t, 2, 2) && Covers(t, 2, 3)
    ensures Scan(t, b, 2, 1) == [Pixel(2, 2, 1.0), Pixel(2, 3, 1.0)]
  {
  }

  lemma UprightBox()
    ensures BoundingBox(Upright) == Box(2, 1, 2, 4)
  {
  }

  lemma UprightScanned(b: Box)
    requires b == Box(2, 1, 2, 4)
    ensures Scan(Upright, b, b.minx, b.miny) == [Pixel(2, 2, 1.0), Pixel(2, 3, 1.0)]
  {
    UprightCoversColumn(2, 2);
    UprightCoversColumn(2, 3);
    UprightScan(Upright, b);
  }

  /** A box of width zero: row miny = 1 is skipped and column maxx = 2 is scanned on rows 2 and 3. */
  lemma UprightYields()
    ensures BoundingBox(Upright) == Box(2, 1, 2, 4)
    ensures Yields(Upright) == [Pixel(2, 2, 1.0), Pixel(2, 3, 1.0)]
  {
    var b := BoundingBox(Upright);
    UprightBox();
    UprightScanned(b);
    YieldsFrom(Upright, b, Scan(Upright, b, b.minx, b.miny));
  }

  // ---------------------------------------------------------------------
  // Calling past the end

  /** The right triangle (1, 1), (3, 1), (1, 3). */
  const RightAngle := Tri(Point(1.0, 1.0), Point(3.0, 1.0), Point(1.0, 3.0))

  /** The three edge functions of `RightAngle` at a point p, as linear forms. */
  lemma RightAngleEdges(p: Point)
    ensures Edge(RightAngle.a, RightAngle.c, p) == -2.0 * (p.x - 1.0)
    ensures Edge(RightAngle.b, RightAngle.a, p) == -2.0 * (p.y - 1.0)
    ensures Edge(RightAngle.c, RightAngle.b, p) == 2.0 * (p.x + p.y - 4.0)
  {
  }

  /** The corners covered are those with x, y >= 1 and x + y <= 4. */
  lemma RightAngleCovers(x: int, y: int)
    ensures Covers(RightAngle, x, y) <==> 1 <= x && 1 <= y && x + y <= 4
  {
    RightAngleEdges(Corner(x, y));
  }

  /** On row 1, the leg from (1, 1) to (3, 1). */
  lemma RightAngleRow1(x: int)
    ensures Covers(RightAngle, x, 1) <==> 1 <= x <= 3
  {
    RightAngleCovers(x, 1);
  }

  /** On row 2, from the vertical leg to the hypotenuse. */
  lemma RightAngleRow2(x: int)
    ensures Covers(RightAngle, x, 2) <==> 1 <= x <= 2
  {
    RightAngleCovers(x, 2);
  }

  /** On row 3, only the vertex (1, 3). */
  lemma RightAngleRow3(x: int)
    ensures Covers(RightAngle, x, 3) <==> x == 1
  {
    RightAngleCovers(x, 3);
  }

  lemma RightAngleScan(t: Tri, b: Box)
    requires b == Box(1, 1, 3, 3)
    requires Covers(t, 1, 1) && Covers(t, 2, 1) && Covers(t, 1, 2) && Covers(t, 2, 2)
    ensures Scan(t, b, 1, 1) == [Pixel(1, 1, 1.0), Pixel(2, 1, 1.0), Pixel(1, 2, 1.0), Pixel(2, 2, 1.0)]
  {
  }

  lemma RightAngleBox()
    ensures BoundingBox(RightAngle) == Box(1, 1, 3, 3)
  {
  }

  lemma RightAngleScanned(b: Box)
    requires b == Box(1, 1, 3, 3)
    ensures Scan(RightAngle, b, b.minx, b.miny) ==
            [Pixel(1, 1, 1.0), Pixel(2, 1, 1.0), Pixel(1, 2, 1.0), Pixel(2, 2, 1.0)]
  {
    RightAngleRow1(1); RightAngleRow1(2); RightAngleRow2(1); RightAngleRow2(2);
    RightAngleScan(RightAngle, b);
  }

  lemma RightAngleYields()
    ensures BoundingBox(RightAngle) == Box(1, 1, 3, 3)
    ensures Yields(RightAngle) ==
            [Pixel(1, 1, 1.0), Pixel(2, 1, 1.0), Pixel(1, 2, 1.0), Pixel(2, 2, 1.0)]
  {
    var b := BoundingBox(RightAngle);
    RightAngleBox();
    RightAngleScanned(b);
    YieldsFrom(RightAngle, b, Scan(RightAngle, b, b.minx, b.miny));
  }

  /** Row maxy = 3 of the box, for any triangle covering (1, 3) but not (2, 3), as `RightAngle` does. */
  lemma RightAngleScanRow3(t: Tri, b: Box)
    requires b == Box(1, 1, 3, 3) && Covers(t, 1, 3) && !Covers(t, 2, 3)
    ensures Scan(t, b, 1, 3) == [Pixel(1, 3, 1.0)]
  {
  }

  /** What the iterator over `RightAngle` yields, and what it finds on row maxy after the end. */
  lemma RightAngleRun()
    ensures BoundingBox(RightAngle) == Box(1, 1, 3, 3)
    ensures Yields(RightAngle) == [Pixel(1, 1, 1.0), Pixel(2, 1, 1.0), Pixel(1, 2, 1.0), Pixel(2, 2, 1.0)]
    ensures Scan(RightAngle, Box(1, 1, 3, 3), 1, 3) == [Pixel(1, 3, 1.0)]
  {
    RightAngleYields();
    RightAngleRow3(1);
    RightAngleRow3(2);
    RightAngleScanRow3(RightAngle, Box(1, 1, 3, 3));
  }

  /** Four calls on an iterator with four pixels left, the last on row 2, exhaust it. */
  method DrainFour(it: FillTriangleIter)
    requires it.Valid() && it.Bounds() == Box(1, 1, 3, 3)
    requires it.Remaining() == [Pixel(1, 1, 1.0), Pixel(2, 1, 1.0), Pixel(1, 2, 1.0), Pixel(2, 2, 1.0)]
    modifies it
    ensures it.Valid() && it.Remaining() == [] && it.iy == 2
  {
    var p := it.Next();
    p := it.Next();
    p := it.Next();
    p := it.Next();
  }

  /**
   * Runs the iterator over any triangle with the box, the pixels and the
   * row maxy of `RightAngle` to its end, then calls it once more.
   */
  method DrainAndResume(t: Tri) returns (end: Option<Pixel>, resumed: Option<Pixel>)
    requires BoundingBox(t) == Box(1, 1, 3, 3)
    requires Yields(t) == [Pixel(1, 1, 1.0), Pixel(2, 1, 1.0), Pixel(1, 2, 1.0), Pixel(2, 2, 1.0)]
    requires Scan(t, Box(1, 1, 3, 3), 1, 3) == [Pixel(1, 3, 1.0)]
    ensures end == None && resumed == Some(Pixel(1, 3, 1.0))
  {
    var it := new FillTriangleIter(t.a, t.b, t.c);
    DrainFour(it);
    end := it.Next();
    resumed := it.Next();
  }

  /**
   * The iterator is not fused: once it has yielded its four pixels and
   * returned `None`, the next call scans row maxy and yields (1, 3).
   */
  method RightAngleResumes() returns (end: Option<Pixel>, resumed: Option<Pixel>)
    ensures end == None && resumed == Some(Pixel(1, 3, 1.0))
  {
    RightAngleRun();
    end, resumed := DrainAndResume(RightAngle);
  }
}

=== FILE: types.dfy ===
/** Value types shared by the two pixel generators. */
module Types {

  /** What an iterator step returns: a value, or nothing once the sequence is exhausted. */
  datatype Option<T> = None | Some(value: T)

  /**
   * A rasterized pixel: integer coordinates and a coverage weight `aa`
   * (the source keeps it as an `f32`; here it is an exact `real`).
   */
  datatype Pixel = Pixel(x: int, y: int, aa: real)

  /** A point (or a vector) of the plane; the source's `f32` coordinates are exact `real`s here. */
  datatype Point = Point(x: real, y: real)

  function Max(a: int, b: int): int { if a >= b then a else b }

  function Min(a: int, b: int): int { if a <= b then a else b }
}
